=== FILE: README.md ===
# Quark p2pool synchronisation layer — a Dafny model

This project models the layer through which a p2pool node for the Quark coin
talks to its Quark daemon:

- the peer-to-peer protocol handler (`p2pool/quark/p2p.py`). Each handler is a
  pure transition from the connection's state and one incoming message to a
  new state and the ordered list of its effects: messages sent, factory events
  (`new_block`, `new_tx`, `new_headers`), `got_response` calls on the two reply
  matchers, `resetDelay`, and `gotConnection` updates of the factory's current
  connection;
- the RPC work client and block submission (`p2pool/quark/helper.py`):
  `check`, `getwork` with its method fallback and field normalisation,
  `submit_block_p2p`, `submit_block_rpc` with its success reading and mismatch
  warning, and `submit_block`. The daemon is an input: a `Daemon` value
  holds its answer to every call. Each operation returns the calls it made,
  in order, and its result or failure;
- the Quark network profile (`p2pool/quark/networks.py`): the halving subsidy
  schedule, `RPC_CHECK`, the block-hash and proof-of-work functions, and the
  sane target range;
- the share-chain profile (`p2pool/networks.py`): chain lengths, target
  bounds and `VERSION_CHECK`.

The byte codec (`pack`, `quark_data`), hex conversion, `hash256` and the
`quark_hash` proof-of-work extension are not part of this model. They appear
as uninterpreted function-valued fields of `QuarkData.Codec` and
`QuarkNetworks.Env`. Nothing is assumed about them, and no byte-level round
trip is claimed.

Files: `wrappers.dfy` (Option/Result), `arith.dfy` (powers of two and division
facts), `quark_data.dfy` (records and codec interface), `rpc.dfy` (daemon
replies and call traces), `quark_networks.dfy`, `networks.dfy`,
`p2p_messages.dfy` (message schemas and enumeration tables), `p2p.dfy`,
`helper.dfy`.

Behaviours of the code worth noting, all modelled as written:
- A second `verack` is not ignored. It installs fresh reply matchers, calls
  `resetDelay` and `gotConnection` again, and starts another pinger without
  stopping the first. The connection state keeps every pinger started, and
  `connectionLost` stops only the last one, so the earlier one keeps pinging
  (`HandleVerack`, `DispatchTable`, `SecondVerackLeaksPinger`,
  `TwoVeracksLeaveRunningPinger`).
- `inv`, `tx`, `ping` and an empty `headers` message are handled before the
  handshake completes. Only `block`, `block_old` and a non-empty `headers`
  message fail before `verack`, because the reply matchers do not exist yet.
  This is Python's `AttributeError`, modelled as `Err(MissingReplyMatcher)`
  (`Handle`).
- Commands that have a schema but no handler (`getdata`, `getblocks`,
  `getheaders`, `getaddr`) are taken to have no effect. This relies on the
  framer's dispatch skipping a command without a `handle_` method. The
  framer is not part of this model.
- A handler that fails does so before any effect of its own. The effects of
  the messages delivered before it stand (`DeliverStep`, `DeliverFailingStep`).
- `getwork` indexes `payee`, `masternode_payments` and `payee_amount`
  unconditionally, so a template without them fails with a missing key
  (`Normalize`).

## Model

| member | source | states |
|---|---|---|
| QuarkNetworks.SubsidyFunc | p2pool/quark/networks.py:21 | The subsidy never exceeds 2048·10^8 base units. |
| QuarkNetworks.ShiftRightIsDivision | p2pool/quark/networks.py:21 | The right shift used by SUBSIDY_FUNC divides by 2^k, rounding down. |
| QuarkNetworks.InitialSubsidyBits | p2pool/quark/networks.py:21 | Shifting 204800000000 right by 37 leaves 1 and by 38 leaves 0, so 2^37 <= 204800000000 < 2^38. |
| QuarkNetworks.SubsidyInitialEra | p2pool/quark/networks.py:21 | Every height h with h+1 < 60480 pays the full 204800000000. |
| QuarkNetworks.HalvingsStep | p2pool/quark/networks.py:21 | Adding 60480 to the height adds exactly one halving. |
| QuarkNetworks.SubsidyHalves | p2pool/quark/networks.py:21 | SUBSIDY_FUNC(h + 60480) == SUBSIDY_FUNC(h) div 2 for every height. |
| QuarkNetworks.SubsidyNonIncreasing | p2pool/quark/networks.py:21 | The subsidy is non-increasing in the height. |
| QuarkNetworks.SubsidyZeroIff | p2pool/quark/networks.py:21 | The subsidy is 0 exactly when (h+1) div 60480 >= 38. |
| QuarkNetworks.Contains | p2pool/quark/networks.py:18 | A match needs the pattern to fit in the text. A prefix match is found. The empty pattern is in every text. |
| QuarkNetworks.ContainsIffOccurs | p2pool/quark/networks.py:18 | The scanning substring test is true exactly when the pattern occurs at some offset, in both directions. |
| QuarkNetworks.RpcCheck | p2pool/quark/networks.py:17-20 | True iff the help text contains `quarkaddress` and getinfo says not testnet. getinfo is called only after the help test passes. RPC errors propagate. A help fault propagates its code after the one help call. A getinfo fault after a passing help test propagates its code after both calls. |
| QuarkNetworks.BlockHashIsPow | p2pool/quark/networks.py:22-23 | BLOCKHASH_FUNC and POW_FUNC agree on every input. |
| QuarkNetworks.SaneTargetRangeOrdered | p2pool/quark/networks.py:30 | 0 < lower bound < upper bound < 2^256. |
| ShareNetworks.ChainLengthsConsistent | p2pool/networks.py:6-15 | REAL_CHAIN_LENGTH <= CHAIN_LENGTH, and CHAIN_LENGTH * SHARE_PERIOD is one day (86400 s). |
| ShareNetworks.ShareTargetBounds | p2pool/networks.py:22-23 | MIN_TARGET <= MAX_TARGET, and MAX_TARGET == 2^224 - 1. |
| ShareNetworks.VersionCheck | p2pool/networks.py:28 | VERSION_CHECK accepts every version. |
| P2PMessages.InvTypeCode | p2pool/quark/p2p.py:68 | Every inv kind has a tag in 1..15. |
| P2PMessages.InvTypeOfCode | p2pool/quark/p2p.py:68 | Decoding an inv tag succeeds exactly for tags 1..15. Unknown tags fail. |
| P2PMessages.InvTypeTableBijective | p2pool/quark/p2p.py:66-71 | The inv enumeration table round-trips in both directions. |
| P2PMessages.GetDataTypeOfCode | p2pool/quark/p2p.py:82-87 | getdata's table decodes only tags 1 (tx) and 2 (block), consistently with the inv table. |
| P2PMessages.DecodePossiblyNone | p2pool/quark/p2p.py:91 | A decoded present value is never the sentinel 0. |
| P2PMessages.PossiblyNoneRoundTrip | p2pool/quark/p2p.py:88-97 | Encoding then decoding `last` is lossless except for a present 0, which reads back as None. Decoding then encoding is always lossless. |
| P2P.BuildProtocol | p2pool/quark/p2p.py:181-184 | A new instance belongs to its factory and has no matchers and no pingers. It is framed with the magic prefix fc a4 02 dc, a payload limit of 1000000 and trailing payload ignored. |
| P2P.ConnectionMade | p2pool/quark/p2p.py:20-38 | On connect exactly one `version` is sent. It carries version 70004, services 1, start height 0, sub-version `/P2Pool:<ver>/`, both addresses with services 1, and the given clock and nonce. |
| P2P.HandleVerack | p2pool/quark/p2p.py:54-64 | verack installs a block matcher that requests `getdata([{block, hash}])` and a header matcher that requests `getheaders(1, [], hash)`. It calls resetDelay and then gotConnection(self), each exactly once and only when the factory has it. It adds a running pinger with nonce 1234 every 30 s and keeps any earlier pinger. |
| P2P.InvActions | p2pool/quark/p2p.py:72-80 | Every effect of `inv` is a getdata of exactly one announced tx entry, or a new_block event for an announced block hash. |
| P2P.InvActionsFollowWantedEntries | p2pool/quark/p2p.py:72-80 | inv yields one effect per tx or block entry, in announcement order. A tx entry gives getdata([entry]), a block entry gives new_block(hash), and other kinds give nothing. |
| P2P.InvActionCount | p2pool/quark/p2p.py:72-80 | The number of effects is the number of tx entries plus the number of block entries. |
| P2P.InvActionsAppend | p2pool/quark/p2p.py:73-80 | Entries are processed independently and in list order: the effects of a + b are the effects of a followed by those of b. |
| P2P.HandleBlock | p2pool/quark/p2p.py:119-130 | One key, POW/BLOCKHASH of the packed header. The block matcher gets the block and the header matcher gets the header, in that order. The state is unchanged. Before verack it fails. |
| P2P.HeadersOf | p2pool/quark/p2p.py:139 | The announced header list has the entries' headers, in order and of the same length. |
| P2P.HeaderResponses | p2pool/quark/p2p.py:136-138 | One header-matcher response per entry, in order, each keyed by that entry's own header hash. |
| P2P.HandleHeaders | p2pool/quark/p2p.py:135-139 | The per-entry header responses come first, then exactly one new_headers event with all headers. Before verack it fails only for a non-empty list. |
| P2P.Handle | p2pool/quark/p2p.py:50-158 | Dispatch fails exactly for block/block_old/non-empty headers before the handshake. Only verack changes the state. Every message sent is packable by its schema. Every matcher response is keyed by its own header's hash. Which handler each command reaches is stated by DispatchTable and QuietMessagesHaveNoEffect. |
| P2P.ConnectionLost | p2pool/quark/p2p.py:160-164 | The current connection is withdrawn with gotConnection(None). Only the last pinger started is stopped, if there is one. Earlier pingers stay unchanged, and so does every other field of the connection state (identity, factory, framing, matchers). |
| P2P.PingerTick | p2pool/quark/p2p.py:63-64 | A tick sends exactly one ping(nonce) per running pinger, oldest pinger first, and nothing for stopped ones. |
| P2P.ApplyActions | p2pool/quark/p2p.py:186-187 | The current connection is the one named by the last gotConnection, wherever it stands among the effects. Effects without gotConnection leave the factory unchanged. |
| P2P.ApplyActionsAppend | p2pool/quark/p2p.py:186-187 | Applying effects in two batches equals applying them at once. |
| P2P.GetProtocol | p2pool/quark/p2p.py:189-190 | getProtocol yields the current connection. With none it yields nothing, and the caller waits. |
| P2P.VerackPublishesConnection | p2pool/quark/p2p.py:54-64 | After the handshake, getProtocol yields this connection. |
| P2P.ConnectionLostWithdraws | p2pool/quark/p2p.py:160-164 | After connection loss no connection is current. If at most one pinger was started, nothing pings any more. |
| P2P.SecondVerackLeaksPinger | p2pool/quark/p2p.py:54-64 | After two veracks and a connection loss, the first pinger still sends ping(1234). |
| P2P.VerackStartsPinging | p2pool/quark/p2p.py:63-64 | After the first verack the one pinger sends ping(1234). |
| P2P.Deliver | p2pool/quark/p2p.py:50-158 | Messages are handled in order. Identity and factory are kept. Installed matchers stay installed, and then nothing fails. Without verack the state is unchanged. Every sent message is packable. A handled first message is followed by the delivery of the rest (`DeliverStep`); a failing one ends the delivery with no effect (`DeliverFailingStep`). |
| P2P.DeliverFailure | p2pool/quark/p2p.py:119-139 | A delivery fails only if it contains a block or non-empty headers message. Before the handshake, with no verack among the messages, such a message always makes it fail. |
| P2P.DeliverAppend | p2pool/quark/p2p.py:50-158 | Delivering a + b is delivering a and then b from the state a reached. The effects concatenate. |
| P2P.EarlierEffectsSurviveFailure | p2pool/quark/p2p.py:119-145 | A ping before a premature block is still answered with a pong, and then delivery fails. |
| P2P.HandshakeEnablesBlocks | p2pool/quark/p2p.py:54-122 | A fresh connection rejects a block. After version and verack the same block is filed under its key, following verack, resetDelay and gotConnection. |
| P2P.VersionAnsweredByVerack | p2pool/quark/p2p.py:50-51 | version yields exactly one verack and no state change. |
| P2P.PingAnsweredByPong | p2pool/quark/p2p.py:144-145 | ping is answered by a pong carrying the same nonce. |
| P2P.QuietMessagesHaveNoEffect | p2pool/quark/p2p.py:82-158 | pong, addr and alert, and the commands without a handler (getdata, getblocks, getheaders, getaddr), produce no effect and change no state. |
| P2P.BlockEncodingsAgree | p2pool/quark/p2p.py:119-130 | block and block_old are handled identically. |
| P2P.DispatchTable | p2pool/quark/p2p.py:54-139 | verack runs the verack handler on every delivery, block and block_old run the block handler, and headers goes to its handler. inv yields exactly the inv effects and tx yields exactly new_tx(tx), neither changing the state. |
| P2P.DeliverFailingStep | p2pool/quark/p2p.py:119-139 | A message whose handler fails ends the delivery with that error, no effect and the state unchanged. |
| P2P.TwoVeracksLeaveRunningPinger | p2pool/quark/p2p.py:54-64 | Two verack messages delivered on a fresh client connection succeed and leave two running 1234/30 pingers; after a connection loss one of them still sends ping(1234). |
| P2P.HeaderRequestSentinel | p2pool/quark/p2p.py:93-97 | The header request for hash h reads back with last = h exactly when h != 0. |
| Helper.Check | p2pool/quark/helper.py:12-18 | check passes iff RPC_CHECK holds and VERSION_CHECK accepts the version. A failed RPC_CHECK retries silently without reading the version. The version is read (a third call) exactly when RPC_CHECK passed. A help fault propagates its code after the one help call. A getinfo fault after a passing help test propagates its code after help and getinfo. |
| Helper.CheckIffRpcCheck | p2pool/quark/helper.py:12-18 | Because every version is accepted, check passes exactly when RPC_CHECK passes. |
| Helper.FetchTemplate | p2pool/quark/helper.py:23-40 | The first call follows the flag. Method-not-found flips the flag for exactly one more call. Two method-not-found answers give a silent retry. The returned flag is that of the successful call. Any other RPC error propagates. An answered first call yields that template with the flag unchanged. An answered second call yields its template with the flag flipped. A fault other than method-not-found ends the attempt with that call's code. |
| Helper.ResolveHeight | p2pool/quark/helper.py:42-45 | A missing height becomes the parent's height + 1, and a given height is kept. In debug mode a given height must equal parent + 1, and a mismatch fails as AssertionFailed. getblock is called exactly when needed, and its fault is passed on with the daemon's code. |
| Helper.DecodeTxs | p2pool/quark/helper.py:41-49 | One decoded transaction per template entry, in order, from its data or the bare string. |
| Helper.HashTxs | p2pool/quark/helper.py:50 | One hash256 per template entry, in order. |
| Helper.FeeOf | p2pool/quark/helper.py:51 | An object entry's fee is its `fee` key, or None when absent. A bare-string entry has no fee. |
| Helper.TxFees | p2pool/quark/helper.py:51 | One fee per template entry: the entry's fee if it is an object, else None. |
| Helper.Normalize | p2pool/quark/helper.py:41-63 | On success the work unit satisfies every field rule for the template (see Getwork below). It fails exactly when the height lookup fails, or when curtime (without time), payee, masternode_payments or payee_amount is absent. A height failure is passed on as is. Otherwise the failure names an absent key. |
| Helper.DecodeBits | p2pool/quark/helper.py:54 | An integer bits value is taken as the compact target. A hex string is decoded, reversed and then unpacked. |
| Helper.ReverseInvolutive | p2pool/quark/helper.py:54 | Reversing the decoded bits twice gives them back. |
| Helper.CoinbaseFlags | p2pool/quark/helper.py:55 | coinbaseflags if present, else all coinbaseaux values decoded and joined, else empty. |
| Helper.ConcatAppend | p2pool/quark/helper.py:55 | Joining two lists of parts equals joining each and concatenating. |
| Helper.PayeeAmount | p2pool/quark/helper.py:62 | A reported amount is kept. An empty one becomes coinbasevalue divided by 5, rounded down: 5r <= coinbasevalue < 5r + 5. |
| Helper.Getwork | p2pool/quark/helper.py:20-63 | The first call follows the flag. The work unit satisfies every field rule (lengths, fees, subsidy, time, coinbaseflags, payee iff non-empty, payee_amount default coinbasevalue div 5, height) for the template of the flag it reports. A flipped flag implies method-not-found. Two method-not-found answers give a silent retry after exactly two calls. It succeeds exactly when the template fetch succeeds, the height resolves and no needed key is absent. A failed fetch passes its failure on. After a successful fetch the calls are the fetch's followed by the height lookup's, a height failure is passed on unchanged, and any other failure names a key absent from the template. |
| Helper.DebugWorkHeightFollowsParent | p2pool/quark/helper.py:42-45 | In debug mode every work unit has height == parent height + 1. |
| Helper.SubmitBlockP2P | p2pool/quark/helper.py:66-70 | With no current connection it retries silently and sends nothing. Otherwise it sends exactly one block message with the given block on the current connection. |
| Helper.SubmitBlockRpc | p2pool/quark/helper.py:74-86 | With the template flag it calls submitblock, falling back to getblocktemplate(mode=submit) on method-not-found, and success iff the result is null. Without the flag it calls getmemorypool(data) and success is the result's truth value. The reported result is the reply of the call actually used. The run succeeds iff that reply is an answer, and an error carries its code. expected is POW <= target. Without ignore_failure it warns iff success != expected. With it, it warns iff success && !expected. |
| Helper.SuccessExpected | p2pool/quark/helper.py:84 | The expectation is the block key (its proof-of-work value) compared with the header's target. |
| Helper.ShouldWarn | p2pool/quark/helper.py:85 | Without ignore_failure it warns on any mismatch. With it, it warns only on an unexpected success. It never warns when success matches the expectation. |
| Helper.SubmitBlockBoth | p2pool/quark/helper.py:88-90 | Both paths are attempted. The peer-to-peer path sends the block on the current connection, or retries silently without one. The RPC path's first call carries the block's hex, and the RPC half is the full submit_block_rpc outcome, with its reply reading and warning rule. |
| Helper.SubmissionPathsIndependent | p2pool/quark/helper.py:88-90 | The peer-to-peer outcome does not depend on the daemon. The RPC outcome does not depend on the connection. |
| Helper.SubmitFollowsConnection | p2pool/quark/helper.py:66-70 | After a handshake the block goes to that connection. After connection loss it retries silently. |

## Left out

- Transport, framing and the byte codec. Magic prefix scanning, checksums, the enforcement of the maximum payload size (the limit itself is recorded by `BuildProtocol`) and `pack`/`unpack` are not modelled. They are I/O and the codec is not part of this model.
- ReconnectingClientFactory backoff (`maxDelay`, reconnect timing). `resetDelay` appears only as an effect. It is event-loop plumbing.
- RobustLoopingCall scheduling. A pinger is a record (nonce, interval, running), and `PingerTick` is one firing of every pinger of a connection.
- P2P.Deliver: stops at the first handler error. What the framer does next (logging the error, keeping or dropping the connection) happens in the transport, which is not part of this model.
- Helper.Normalize: `version`, `previousblockhash`, `transactions`, `coinbasevalue` and `bits` are always present. A template without one of these, which fails with a missing key in the source, is not modelled.
- ReplyMatcher, Variable and Event internals (resend timers, waiter lists, subscribers) are not part of this model. Only the calls made to them are effects.
- The `deferral.retry` wrappers around check, getwork and both submission paths. Each operation is one attempt whose failure says whether it asked for a silent retry.
- Clock and randomness. `time.time()`, the `version` nonce, `latency` and `last_update` are inputs or omitted from the work unit.
- Diagnostics. Every `print`, including the `p2pool.DEBUG` traces in `handle_inv` and `connectionLost`, is left out.
- Codec failures. Hex decoding, `tx_type.unpack` and `address_to_pubkey_hash` are total uninterpreted functions, so their exceptions are not modelled.
- Daemon state. Each call's answer is fixed per `Daemon` value, so the two `getinfo` calls of `check` see the same answer.
- JSON typing. Template values are typed (`masternode_payments` as a boolean, `payee_amount` as empty or a number). Ill-typed JSON is not modelled.
- Network-profile values no operation of this layer reads: the ports, address versions, `BLOCK_PERIOD`, `SYMBOL` and `DUMB_SCRYPT_DIFF` of the Quark profile, and `TARGET_LOOKBEHIND`, `SPREAD`, the ports and `PERSIST` of the share-chain profile. They configure other parts of the node.
- Network-profile strings and paths. `CONF_FILE_FUNC`, `DUST_THRESHOLD`, the explorer URL prefixes, and the share-chain `IDENTIFIER`, `PREFIX`, `COINBASEEXT`, `BOOTSTRAP_ADDRS` and `ANNOUNCE_CHANNEL` are left out. They are OS paths, floating point or strings unused by this layer.

=== FILE: arith.dfy ===
/** Powers of two and the division facts needed to reason about right shifts. */
module Arith {

  /** 2^k. Python's `x >> k` on a non-negative `x` is `x / Pow2(k)`. */
  function Pow2(k: nat): (r: nat)
    ensures r >= 1
  {
    if k == 0 then 1 else 2 * Pow2(k - 1)
  }

  lemma {:induction false} Pow2Add(a: nat, b: nat)
    ensures Pow2(a + b) == Pow2(a) * Pow2(b)
  {
    if a != 0 {
      Pow2Add(a - 1, b);
      assert Pow2(a + b) == 2 * Pow2(a - 1 + b);
    }
  }

  /** `d * m` grows with `m`. */
  lemma MulMonotone(d: nat, m: int, n: int)
    requires m <= n
    ensures d * m <= d * n
  {
    assert d * n - d * m == d * (n - m);
  }

  /** Division is characterised by its quotient and remainder. */
  lemma DivUnique(x: int, d: int, q: int, r: int)
    requires d > 0 && 0 <= r < d && x == d * q + r
    ensures x / d == q
  {
    var q' := x / d;
    var r' := x % d;
    assert x == d * q' + r';
    if q' < q {
      MulMonotone(d, q' + 1, q);
    } else if q' > q {
      MulMonotone(d, q + 1, q');
    }
  }

  /** Dividing by a product is dividing twice: `(x >> a) >> b == x >> (a + b)`. */
  lemma DivDiv(x: nat, a: nat, b: nat)
    requires a > 0 && b > 0
    ensures x / (a * b) == x / a / b
  {
    var q := x / a;
    var r := x % a;
    var q2 := q / b;
    var r2 := q % b;
    assert x == a * q + r;
    assert q == b * q2 + r2;
    assert a * q == (a * b) * q2 + a * r2 by {
      assert a * q == a * (b * q2 + r2);
      assert a * (b * q2 + r2) == a * (b * q2) + a * r2;
      assert a * (b * q2) == (a * b) * q2;
    }
    assert a * r2 + r < a * b by {
      MulMonotone(a, r2, b - 1);
      assert a * (b - 1) == a * b - a;
    }
    DivUnique(x, a * b, q2, a * r2 + r);
  }
}

=== FILE: helper.dfy ===
/**
 * The RPC side of the synchronisation layer: the daemon identity check,
 * fetching and normalising a block template into a work unit, and the two
 * independent block submission paths with their success reconciliation.
 * Every operation is one attempt; the retry wrappers around them are not
 * modelled.
 */
module Helper {
  import opened Wrappers
  import opened QuarkData
  import opened QuarkNetworks
  import opened Rpc
  import opened P2PMessages
  import opened P2P
  import ShareNetworks

  /**
   * `check`: the daemon must pass `RPC_CHECK`, and only then is its version
   * read and tested with `VERSION_CHECK`. Either failure asks for a silent
   * retry; a JSON-RPC error propagates.
   */
  function Check(d: Daemon): (r: Run<()>)
    ensures r.result.Ok? <==>
      && d.help.Answer? && QuarkHelp(d.help.value)
      && d.getinfo.Answer? && !d.getinfo.value.testnet
      && ShareNetworks.VersionCheck(d.getinfo.value.version)
    ensures r.result == Err(RetrySilently(WrongDaemon)) <==>
      d.help.Answer? && (!QuarkHelp(d.help.value) || (d.getinfo.Answer? && d.getinfo.value.testnet))
    ensures r.result == Err(RetrySilently(VersionTooOld)) ==> d.getinfo.Answer? && !ShareNetworks.VersionCheck(d.getinfo.value.version)
    ensures d.help.Fault? ==> r == Run([Help], Err(RpcError(d.help.code)))
    ensures d.help.Answer? && QuarkHelp(d.help.value) && d.getinfo.Fault? ==>
      r == Run([Help, GetInfo], Err(RpcError(d.getinfo.code)))
    ensures r.calls == [Help, GetInfo, GetInfo] <==> RpcCheck(d).result == Ok(true)
    ensures r.result == Err(RetrySilently(WrongDaemon)) ==> |r.calls| <= 2
  {
    var probe := RpcCheck(d);
    match probe.result
    case Err(e) => Run(probe.calls, Err(e))
    case Ok(passed) =>
      if !passed then Run(probe.calls, Err(RetrySilently(WrongDaemon)))
      else
        match d.getinfo
        case Fault(code) => Run(probe.calls + [GetInfo], Err(RpcError(code)))
        case Answer(info) =>
          if ShareNetworks.VersionCheck(info.version) then Run(probe.calls + [GetInfo], Ok(()))
          else Run(probe.calls + [GetInfo], Err(RetrySilently(VersionTooOld)))
  }

  /** Since every version is accepted, `check` passes exactly when `RPC_CHECK` does. */
  lemma CheckIffRpcCheck(d: Daemon)
    ensures Check(d).result.Ok? <==> RpcCheck(d).result == Ok(true)
  {
  }

  /** The template call for each value of the `use_getblocktemplate` flag. */
  function TemplateCall(useGetBlockTemplate: bool): RpcCall {
    if useGetBlockTemplate then GetBlockTemplate(TemplateRequest) else GetMemoryPool(None)
  }

  /** The daemon's answer to the template call for each value of the flag. */
  function TemplateReply(d: Daemon, useGetBlockTemplate: bool): Reply<Template> {
    if useGetBlockTemplate then d.blockTemplate else d.memoryPool
  }

  /** A template and the flag of the call that produced it. */
  datatype Fetched = Fetched(template: Template, useGetBlockTemplate: bool)

  /**
   * The method fallback of `getwork`: call the method the flag selects; on
   * "method not found" flip the flag and call once more; a second "method
   * not found" asks for a silent retry.
   */
  function FetchTemplate(d: Daemon, useGetBlockTemplate: bool): (r: Run<Fetched>)
    ensures 1 <= |r.calls| <= 2 && r.calls[0] == TemplateCall(useGetBlockTemplate)
    ensures |r.calls| == 2 <==> TemplateReply(d, useGetBlockTemplate).MethodNotFound()
    ensures |r.calls| == 2 ==> r.calls[1] == TemplateCall(!useGetBlockTemplate)
    ensures r.result.Ok? ==>
      && TemplateReply(d, r.result.value.useGetBlockTemplate) == Answer(r.result.value.template)
      && r.calls[|r.calls| - 1] == TemplateCall(r.result.value.useGetBlockTemplate)
    ensures r.result.Ok? && r.result.value.useGetBlockTemplate != useGetBlockTemplate ==>
      TemplateReply(d, useGetBlockTemplate).MethodNotFound()
    ensures r.result == Err(RetrySilently(NoWorkMethod)) <==>
      TemplateReply(d, useGetBlockTemplate).MethodNotFound() && TemplateReply(d, !useGetBlockTemplate).MethodNotFound()
    ensures r.result.Err? && r.result != Err(RetrySilently(NoWorkMethod)) ==>
      r.result.error.RpcError? && r.result.error.code != METHOD_NOT_FOUND
    ensures TemplateReply(d, useGetBlockTemplate).Answer? ==>
      r.result == Ok(Fetched(TemplateReply(d, useGetBlockTemplate).value, useGetBlockTemplate))
    ensures TemplateReply(d, useGetBlockTemplate).Fault? && !TemplateReply(d, useGetBlockTemplate).MethodNotFound() ==>
      r.result == Err(RpcError(TemplateReply(d, useGetBlockTemplate).code))
    ensures TemplateReply(d, useGetBlockTemplate).MethodNotFound() && TemplateReply(d, !useGetBlockTemplate).Answer? ==>
      r.result == Ok(Fetched(TemplateReply(d, !useGetBlockTemplate).value, !useGetBlockTemplate))
    ensures && TemplateReply(d, useGetBlockTemplate).MethodNotFound()
            && TemplateReply(d, !useGetBlockTemplate).Fault?
            && !TemplateReply(d, !useGetBlockTemplate).MethodNotFound()
            ==> r.result == Err(RpcError(TemplateReply(d, !useGetBlockTemplate).code))
  {
    var first := TemplateCall(useGetBlockTemplate);
    match TemplateReply(d, useGetBlockTemplate)
    case Answer(t) => Run([first], Ok(Fetched(t, useGetBlockTemplate)))
    case Fault(code) =>
      if code != METHOD_NOT_FOUND then Run([first], Err(RpcError(code)))
      else
        var second := TemplateCall(!useGetBlockTemplate);
        match TemplateReply(d, !useGetBlockTemplate)
        case Answer(t) => Run([first, second], Ok(Fetched(t, !useGetBlockTemplate)))
        case Fault(code2) =>
          if code2 == METHOD_NOT_FOUND then Run([first, second], Err(RetrySilently(NoWorkMethod)))
          else Run([first, second], Err(RpcError(code2)))
  }

  /**
   * The block height of the work unit: the template's `height` when present,
   * otherwise one more than the parent block's height. In debug mode a given
   * height is cross-checked against the same lookup.
   */
  function ResolveHeight(d: Daemon, t: Template, debug: bool): (r: Run<int>)
    ensures r.calls == [] || r.calls == [GetBlock(t.previousBlockHash)]
    ensures r.calls == [] <==> t.height.Some? && !debug
    ensures t.height.Some? && r.result.Ok? ==> r.result.value == t.height.value
    ensures t.height.None? && r.result.Ok? ==>
      d.getBlockHeight(t.previousBlockHash).Answer? && r.result.value == d.getBlockHeight(t.previousBlockHash).value + 1
    ensures debug && r.result.Ok? ==>
      d.getBlockHeight(t.previousBlockHash).Answer? && r.result.value == d.getBlockHeight(t.previousBlockHash).value + 1
    ensures r.result.Err? <==>
      (t.height.None? || debug) &&
      (d.getBlockHeight(t.previousBlockHash).Fault? ||
       (t.height.Some? && t.height.value != d.getBlockHeight(t.previousBlockHash).value + 1))
    ensures (t.height.None? || debug) && d.getBlockHeight(t.previousBlockHash).Fault? ==>
      r == Run([GetBlock(t.previousBlockHash)], Err(RpcError(d.getBlockHeight(t.previousBlockHash).code)))
    ensures debug && t.height.Some? && d.getBlockHeight(t.previousBlockHash).Answer? ==>
      (t.height.value != d.getBlockHeight(t.previousBlockHash).value + 1 ==> r.result == Err(AssertionFailed))
  {
    var lookup := GetBlock(t.previousBlockHash);
    match t.height
    case None =>
      (match d.getBlockHeight(t.previousBlockHash)
       case Answer(parent) => Run([lookup], Ok(parent + 1))
       case Fault(code) => Run([lookup], Err(RpcError(code))))
    case Some(h) =>
      if !debug then Run([], Ok(h))
      else
        match d.getBlockHeight(t.previousBlockHash)
        case Answer(parent) => Run([lookup], if h == parent + 1 then Ok(h) else Err(AssertionFailed))
        case Fault(code) => Run([lookup], Err(RpcError(code)))
  }

  /** The sequence in reverse order. */
  function Reverse(s: Bytes): (r: Bytes)
    ensures |r| == |s|
    ensures forall i :: 0 <= i < |s| ==> r[i] == s[|s| - 1 - i]
  {
    if s == [] then [] else Reverse(s[1..]) + [s[0]]
  }

  /** Reversing twice gives the bytes back. */
  lemma ReverseInvolutive(s: Bytes)
    ensures Reverse(Reverse(s)) == s
  {
    var r := Reverse(Reverse(s));
    assert forall i :: 0 <= i < |s| ==> r[i] == Reverse(s)[|s| - 1 - i] == s[i];
  }

  /** The strings of `parts` concatenated in order. */
  function Concat(parts: seq<Bytes>): Bytes {
    if parts == [] then [] else parts[0] + Concat(parts[1..])
  }

  /** Joining two lists of parts is joining each and concatenating the results. */
  lemma {:induction false} ConcatAppend(a: seq<Bytes>, b: seq<Bytes>)
    ensures Concat(a + b) == Concat(a) + Concat(b)
  {
    if a != [] {
      assert (a + b)[0] == a[0];
      assert (a + b)[1..] == a[1..] + b;
      ConcatAppend(a[1..], b);
    } else {
      assert a + b == b;
    }
  }

  /** The decoded hex strings of `coinbaseaux`, in the dictionary's iteration order. */
  function DecodeAll(codec: Codec, hexes: seq<string>): (r: seq<Bytes>)
    ensures |r| == |hexes|
    ensures forall i :: 0 <= i < |hexes| ==> r[i] == codec.hexDecode(hexes[i])
  {
    seq(|hexes|, i requires 0 <= i < |hexes| => codec.hexDecode(hexes[i]))
  }

  /** The raw bytes of a template transaction: its `data`, or the entry itself, hex-decoded. */
  function PackedTx(codec: Codec, t: TemplateTx): Bytes {
    codec.hexDecode(t.Packed())
  }

  /** Each packed transaction decoded by the codec, in order. */
  function DecodeTxs(codec: Codec, txs: seq<TemplateTx>): (r: seq<Tx>)
    ensures |r| == |txs|
    ensures forall i :: 0 <= i < |txs| ==> r[i] == codec.unpackTx(PackedTx(codec, txs[i]))
  {
    seq(|txs|, i requires 0 <= i < |txs| => codec.unpackTx(PackedTx(codec, txs[i])))
  }

  /** The double-SHA256 hash of each packed transaction, in order. */
  function HashTxs(codec: Codec, txs: seq<TemplateTx>): (r: seq<UInt256>)
    ensures |r| == |txs|
    ensures forall i :: 0 <= i < |txs| ==> r[i] == codec.hash256(PackedTx(codec, txs[i]))
  {
    if txs == [] then [] else [codec.hash256(PackedTx(codec, txs[0]))] + HashTxs(codec, txs[1..])
  }

  /** The inline fee hint of a template transaction, if it carries one. */
  function FeeOf(t: TemplateTx): (fee: Option<int>)
    ensures t.TxObject? ==> fee == t.fee
    ensures t.TxHex? ==> fee.None?
  {
    match t
    case TxObject(_, fee) => fee
    case TxHex(_) => None
  }

  function TxFees(txs: seq<TemplateTx>): (r: seq<Option<int>>)
    ensures |r| == |txs|
    ensures forall i :: 0 <= i < |txs| ==> r[i] == FeeOf(txs[i])
  {
    seq(|txs|, i requires 0 <= i < |txs| => FeeOf(txs[i]))
  }

  /** `coinbaseflags`: the given flags, else the concatenated `coinbaseaux` values, else empty. */
  function CoinbaseFlags(codec: Codec, t: Template): (r: Bytes)
    ensures t.coinbaseFlags.Some? ==> r == codec.hexDecode(t.coinbaseFlags.value)
    ensures t.coinbaseFlags.None? && t.coinbaseAux.Some? ==>
      r == Concat(DecodeAll(codec, t.coinbaseAux.value))
    ensures t.coinbaseFlags.None? && t.coinbaseAux.None? ==> r == []
  {
    if t.coinbaseFlags.Some? then codec.hexDecode(t.coinbaseFlags.value)
    else if t.coinbaseAux.Some? then Concat(DecodeAll(codec, t.coinbaseAux.value))
    else []
  }

  /**
   * `payee_amount`: the reported amount, or a fifth of the coinbase value,
   * rounded down, when it is reported empty. Python's integer `/` floors,
   * which agrees with Dafny's `/` for a positive divisor.
   */
  function PayeeAmount(amount: AmountField, coinbaseValue: int): (r: int)
    ensures amount.Amount? ==> r == amount.n
    ensures amount.EmptyAmount? ==> 5 * r <= coinbaseValue < 5 * r + 5
  {
    match amount
    case Amount(n) => n
    case EmptyAmount => coinbaseValue / 5
  }

  /** The normalised work unit `getwork` returns. Latency and the update timestamp are not modelled. */
  datatype Work = Work(
    version: int,
    previousBlock: nat,
    transactions: seq<Tx>,
    transactionHashes: seq<UInt256>,
    transactionFees: seq<Option<int>>,
    subsidy: int,
    time: int,
    bits: FloatingInteger,
    coinbaseFlags: Bytes,
    height: int,
    useGetBlockTemplate: bool,
    payee: Option<nat>,
    masternodePayments: bool,
    payeeAmount: int)

  /** `bits`: a hex string is decoded and byte-reversed before unpacking; an integer is wrapped directly. */
  function DecodeBits(codec: Codec, b: BitsField): (r: FloatingInteger)
    ensures b.BitsInt? ==> r.bits == b.n
    ensures b.BitsHex? ==> r == codec.unpackBits(Reverse(codec.hexDecode(b.hex)))
  {
    match b
    case BitsHex(h) => codec.unpackBits(Reverse(codec.hexDecode(h)))
    case BitsInt(n) => FloatingInteger(n)
  }

  /**
   * Whether a key the work unit needs is absent from the template: neither
   * `time` nor `curtime`, or one of the masternode keys.
   */
  predicate KeyMissing(t: Template, key: string) {
    || (key == "curtime" && t.time.None? && t.curTime.None?)
    || (key == "payee" && t.payee.None?)
    || (key == "masternode_payments" && t.masternodePayments.None?)
    || (key == "payee_amount" && t.payeeAmount.None?)
  }

  /** The template lacks a key the work unit needs. */
  predicate Incomplete(t: Template) {
    (t.time.None? && t.curTime.None?) || t.payee.None? || t.masternodePayments.None? || t.payeeAmount.None?
  }

  /** The work unit of a template that has every key it needs, at height `height`. */
  function BuildWork(codec: Codec, f: Fetched, height: int): Work
    requires !Incomplete(f.template)
  {
    var t := f.template;
    Work(
      t.version,
      codec.parseHex(t.previousBlockHash),
      DecodeTxs(codec, t.transactions),
      HashTxs(codec, t.transactions),
      TxFees(t.transactions),
      t.coinbaseValue,
      if t.time.Some? then t.time.value else t.curTime.value,
      DecodeBits(codec, t.bits),
      CoinbaseFlags(codec, t),
      height,
      f.useGetBlockTemplate,
      if t.payee.value != "" then Some(codec.addressToPubkeyHash(t.payee.value)) else None,
      t.masternodePayments.value,
      PayeeAmount(t.payeeAmount.value, t.coinbaseValue))
  }

  /**
   * The normalisation of a fetched template into a work unit. The height is
   * resolved first; then the keys are read in the order the work unit lists
   * them, and the first absent one fails.
   */
  function Normalize(codec: Codec, d: Daemon, debug: bool, f: Fetched): (r: Run<Work>)
    ensures r.calls == ResolveHeight(d, f.template, debug).calls
    ensures r.result.Err? <==> ResolveHeight(d, f.template, debug).result.Err? || Incomplete(f.template)
    ensures ResolveHeight(d, f.template, debug).result.Err? ==>
      r.result.Err? && r.result.error == ResolveHeight(d, f.template, debug).result.error
    ensures ResolveHeight(d, f.template, debug).result.Ok? && r.result.Err? ==>
      r.result.error.MissingKey? && KeyMissing(f.template, r.result.error.key)
    ensures r.result.Ok? ==> WorkFromTemplate(codec, d, f, r.result.value)
  {
    var t := f.template;
    var height := ResolveHeight(d, t, debug);
    match height.result
    case Err(e) => Run(height.calls, Err(e))
    case Ok(h) =>
      if t.time.None? && t.curTime.None? then Run(height.calls, Err(MissingKey("curtime")))
      else if t.payee.None? then Run(height.calls, Err(MissingKey("payee")))
      else if t.masternodePayments.None? then Run(height.calls, Err(MissingKey("masternode_payments")))
      else if t.payeeAmount.None? then Run(height.calls, Err(MissingKey("payee_amount")))
      else
        Run(height.calls, Ok(BuildWork(codec, f, h)))
  }

  /**
   * What a work unit promises about the template it came from: one decoded
   * transaction, hash and fee per template entry, in order; the subsidy is
   * the coinbase value; the defaulting rules for time, coinbase flags, payee
   * and payee amount; the height rule; and the flag of the call that
   * produced the template.
   */
  ghost predicate WorkFromTemplate(codec: Codec, d: Daemon, f: Fetched, w: Work) {
    var t := f.template;
    && |w.transactions| == |t.transactions|
    && |w.transactionHashes| == |t.transactions|
    && |w.transactionFees| == |t.transactions|
    && (forall i :: 0 <= i < |t.transactions| ==>
          && w.transactions[i] == codec.unpackTx(PackedTx(codec, t.transactions[i]))
          && w.transactionHashes[i] == codec.hash256(PackedTx(codec, t.transactions[i]))
          && (t.transactions[i].TxObject? ==> w.transactionFees[i] == t.transactions[i].fee)
          && (t.transactions[i].TxHex? ==> w.transactionFees[i].None?))
    && w.version == t.version
    && w.previousBlock == codec.parseHex(t.previousBlockHash)
    && w.subsidy == t.coinbaseValue
    && (t.time.Some? ==> w.time == t.time.value)
    && (t.time.None? ==> t.curTime.Some? && w.time == t.curTime.value)
    && (t.coinbaseFlags.Some? ==> w.coinbaseFlags == codec.hexDecode(t.coinbaseFlags.value))
    && (t.coinbaseFlags.None? && t.coinbaseAux.Some? ==>
          w.coinbaseFlags == Concat(DecodeAll(codec, t.coinbaseAux.value)))
    && (t.coinbaseFlags.None? && t.coinbaseAux.None? ==> w.coinbaseFlags == [])
    && (t.height.Some? ==> w.height == t.height.value)
    && (t.height.None? ==>
          d.getBlockHeight(t.previousBlockHash).Answer? && w.height == d.getBlockHeight(t.previousBlockHash).value + 1)
    && t.payee.Some? && t.masternodePayments.Some? && t.payeeAmount.Some?
    && (w.payee.None? <==> t.payee.value == "")
    && (w.payee.Some? ==> w.payee.value == codec.addressToPubkeyHash(t.payee.value))
    && w.masternodePayments == t.masternodePayments.value
    && (t.payeeAmount.value.Amount? ==> w.payeeAmount == t.payeeAmount.value.n)
    && (t.payeeAmount.value.EmptyAmount? ==> 5 * w.payeeAmount <= t.coinbaseValue < 5 * w.payeeAmount + 5)
    && w.useGetBlockTemplate == f.useGetBlockTemplate
    && w.bits == DecodeBits(codec, t.bits)
  }

  /** `getwork`: fetch a template with the method fallback, then normalise it. */
  function Getwork(codec: Codec, d: Daemon, debug: bool, useGetBlockTemplate: bool): (r: Run<Work>)
    ensures |r.calls| >= 1 && r.calls[0] == TemplateCall(useGetBlockTemplate)
    ensures r.result.Ok? ==>
      && TemplateReply(d, r.result.value.useGetBlockTemplate).Answer?
      && WorkFromTemplate(codec, d,
           Fetched(TemplateReply(d, r.result.value.useGetBlockTemplate).value, r.result.value.useGetBlockTemplate),
           r.result.value)
    ensures r.result.Ok? && r.result.value.useGetBlockTemplate != useGetBlockTemplate ==>
      TemplateReply(d, useGetBlockTemplate).MethodNotFound()
    ensures TemplateReply(d, useGetBlockTemplate).MethodNotFound() && TemplateReply(d, !useGetBlockTemplate).MethodNotFound() ==>
      r == Run([TemplateCall(useGetBlockTemplate), TemplateCall(!useGetBlockTemplate)], Err(RetrySilently(NoWorkMethod)))
    ensures r.result.Ok? <==>
      && FetchTemplate(d, useGetBlockTemplate).result.Ok?
      && ResolveHeight(d, FetchTemplate(d, useGetBlockTemplate).result.value.template, debug).result.Ok?
      && !Incomplete(FetchTemplate(d, useGetBlockTemplate).result.value.template)
    ensures FetchTemplate(d, useGetBlockTemplate).result.Err? ==>
      r.result.Err? && r.result.error == FetchTemplate(d, useGetBlockTemplate).result.error
    ensures FetchTemplate(d, useGetBlockTemplate).result.Ok? ==>
      var height := ResolveHeight(d, FetchTemplate(d, useGetBlockTemplate).result.value.template, debug);
      r.calls == FetchTemplate(d, useGetBlockTemplate).calls + height.calls
    ensures FetchTemplate(d, useGetBlockTemplate).result.Ok? ==>
      var height := ResolveHeight(d, FetchTemplate(d, useGetBlockTemplate).result.value.template, debug);
      height.result.Err? ==> r.result.Err? && r.result.error == height.result.error
    ensures FetchTemplate(d, useGetBlockTemplate).result.Ok? ==>
      var t := FetchTemplate(d, useGetBlockTemplate).result.value.template;
      ResolveHeight(d, t, debug).result.Ok? && r.result.Err? ==> r.result.error.MissingKey? && KeyMissing(t, r.result.error.key)
  {
    var fetched := FetchTemplate(d, useGetBlockTemplate);
    match fetched.result
    case Err(e) => Run(fetched.calls, Err(e))
    case Ok(f) =>
      var work := Normalize(codec, d, debug, f);
      Run(fetched.calls + work.calls, work.result)
  }

  /** In debug mode every work unit satisfies `height == parent height + 1`. */
  lemma DebugWorkHeightFollowsParent(codec: Codec, d: Daemon, useGetBlockTemplate: bool)
    requires Getwork(codec, d, true, useGetBlockTemplate).result.Ok?
    ensures var w := Getwork(codec, d, true, useGetBlockTemplate).result.value;
      var t := TemplateReply(d, w.useGetBlockTemplate).value;
      d.getBlockHeight(t.previousBlockHash).Answer? && w.height == d.getBlockHeight(t.previousBlockHash).value + 1
  {
    var f := FetchTemplate(d, useGetBlockTemplate).result.value;
    assert ResolveHeight(d, f.template, true).result.Ok?;
  }

  /** Where a block was sent on the peer-to-peer path. */
  datatype Sent = Sent(conn: ConnId, msg: Message)

  /** `submit_block_p2p`: send the block on the current connection, or ask for a silent retry if there is none. */
  function SubmitBlockP2P(f: Factory, block: Block): (r: Result<Sent, Failure>)
    ensures r.Err? <==> f.conn.None?
    ensures r.Err? ==> r.error == RetrySilently(NoConnection)
    ensures r.Ok? ==> r.value.conn == f.conn.value && r.value.msg == BlockMsg(block)
  {
    match f.conn
    case None => Err(RetrySilently(NoConnection))
    case Some(c) => Ok(Sent(c, BlockMsg(block)))
  }

  /** What the RPC submission observed, expected, and whether it printed the mismatch warning. */
  datatype SubmitReport = SubmitReport(result: Json, success: bool, expected: bool, warned: bool)

  /**
   * The block's proof of work meets the target its header declares. Since
   * the proof-of-work function is the block hash, this compares the block's
   * own key with its target.
   */
  function SuccessExpected(env: Env, block: Block): (e: bool)
    ensures e <==> BlockKey(env, block.header) <= env.codec.target(block.header.bits)
  {
    PowFunc(env, env.codec.packHeader(block.header)) <= env.codec.target(block.header.bits)
  }

  /**
   * `submit_block_rpc`'s test for printing the mismatch warning: any
   * disagreement between outcome and expectation, except that an unexpected
   * failure is tolerated when failures are to be ignored.
   */
  function ShouldWarn(success: bool, expected: bool, ignoreFailure: bool): (w: bool)
    ensures !ignoreFailure ==> (w <==> success != expected)
    ensures ignoreFailure ==> (w <==> success && !expected)
    ensures success == expected ==> !w
  {
    (!success && expected && !ignoreFailure) || (success && !expected)
  }

  /** The hex of the packed block, the argument of every submission call. */
  function BlockHex(env: Env, block: Block): string {
    env.codec.hexEncode(env.codec.packBlock(block))
  }

  /** The run reports the daemon's `reply`: its value on an answer, its code on an error. */
  predicate ReportsReply(r: Run<SubmitReport>, reply: Reply<Json>) {
    && (r.result.Ok? <==> reply.Answer?)
    && (r.result.Ok? ==> r.result.value.result == reply.value)
    && (r.result.Err? ==> r.result.error == RpcError(reply.code))
  }

  function Report(env: Env, block: Block, result: Json, success: bool, ignoreFailure: bool): SubmitReport {
    var expected := SuccessExpected(env, block);
    SubmitReport(result, success, expected, ShouldWarn(success, expected, ignoreFailure))
  }

  /**
   * `submit_block_rpc`: submit through the method family the work came from.
   * With `getblocktemplate`, `submitblock` is tried first and the template
   * call in submit mode on "method not found"; success is a null result.
   * Otherwise `getmemorypool(data)` is called and its result is the success.
   */
  function SubmitBlockRpc(env: Env, d: Daemon, useGetBlockTemplate: bool, block: Block, ignoreFailure: bool): (r: Run<SubmitReport>)
    ensures 1 <= |r.calls| <= 2
    ensures useGetBlockTemplate ==> r.calls[0] == SubmitBlock(BlockHex(env, block))
    ensures useGetBlockTemplate ==>
      (|r.calls| == 2 <==> d.submitBlock(BlockHex(env, block)).MethodNotFound())
    ensures |r.calls| == 2 ==> r.calls[1] == GetBlockTemplate(SubmitRequest(BlockHex(env, block)))
    ensures !useGetBlockTemplate ==> r.calls == [GetMemoryPool(Some(BlockHex(env, block)))]
    ensures useGetBlockTemplate && !d.submitBlock(BlockHex(env, block)).MethodNotFound() ==>
      ReportsReply(r, d.submitBlock(BlockHex(env, block)))
    ensures useGetBlockTemplate && d.submitBlock(BlockHex(env, block)).MethodNotFound() ==>
      ReportsReply(r, d.templateSubmit(BlockHex(env, block)))
    ensures !useGetBlockTemplate ==> ReportsReply(r, d.memoryPoolSubmit(BlockHex(env, block)))
    ensures r.result.Ok? && useGetBlockTemplate ==> (r.result.value.success <==> r.result.value.result.JNull?)
    ensures r.result.Ok? && !useGetBlockTemplate ==> (r.result.value.success <==> r.result.value.result.Truthy())
    ensures r.result.Ok? ==>
      (r.result.value.expected <==> PowFunc(env, env.codec.packHeader(block.header)) <= env.codec.target(block.header.bits))
    ensures r.result.Ok? && !ignoreFailure ==> (r.result.value.warned <==> r.result.value.success != r.result.value.expected)
    ensures r.result.Ok? && ignoreFailure ==> (r.result.value.warned <==> r.result.value.success && !r.result.value.expected)
    ensures r.result.Err? ==> r.result.error.RpcError?
  {
    var data := BlockHex(env, block);
    if useGetBlockTemplate then
      match d.submitBlock(data)
      case Answer(v) => Run([SubmitBlock(data)], Ok(Report(env, block, v, v.JNull?, ignoreFailure)))
      case Fault(code) =>
        if code != METHOD_NOT_FOUND then Run([SubmitBlock(data)], Err(RpcError(code)))
        else
          var calls := [SubmitBlock(data), GetBlockTemplate(SubmitRequest(data))];
          match d.templateSubmit(data)
          case Answer(v) => Run(calls, Ok(Report(env, block, v, v.JNull?, ignoreFailure)))
          case Fault(code2) => Run(calls, Err(RpcError(code2)))
    else
      match d.memoryPoolSubmit(data)
      case Answer(v) => Run([GetMemoryPool(Some(data))], Ok(Report(env, block, v, v.Truthy(), ignoreFailure)))
      case Fault(code) => Run([GetMemoryPool(Some(data))], Err(RpcError(code)))
  }

  /** The outcome of both submission paths. */
  datatype Submission = Submission(p2p: Result<Sent, Failure>, rpc: Run<SubmitReport>)

  /** `submit_block`: both paths are attempted; neither one's failure prevents the other. */
  function SubmitBlockBoth(env: Env, f: Factory, d: Daemon, useGetBlockTemplate: bool, block: Block, ignoreFailure: bool): (r: Submission)
    ensures r.p2p.Ok? <==> f.conn.Some?
    ensures r.p2p.Ok? ==> r.p2p.value == Sent(f.conn.value, BlockMsg(block))
    ensures r.p2p.Err? ==> r.p2p.error == RetrySilently(NoConnection)
    ensures r.rpc.calls != []
    ensures r.rpc.calls[0] ==
      if useGetBlockTemplate then SubmitBlock(BlockHex(env, block)) else GetMemoryPool(Some(BlockHex(env, block)))
    ensures r.rpc.result.Ok? ==> r.rpc.result.value.expected == SuccessExpected(env, block)
    ensures r.rpc == SubmitBlockRpc(env, d, useGetBlockTemplate, block, ignoreFailure)
  {
    Submission(SubmitBlockP2P(f, block), SubmitBlockRpc(env, d, useGetBlockTemplate, block, ignoreFailure))
  }

  /**
   * The two paths are independent: the peer-to-peer outcome does not depend
   * on the daemon, and the RPC outcome does not depend on the connection.
   */
  lemma SubmissionPathsIndependent(env: Env, f: Factory, f': Factory, d: Daemon, d': Daemon,
                                   useGetBlockTemplate: bool, block: Block, ignoreFailure: bool)
    ensures SubmitBlockBoth(env, f, d, useGetBlockTemplate, block, ignoreFailure).p2p
         == SubmitBlockBoth(env, f, d', useGetBlockTemplate, block, ignoreFailure).p2p
    ensures SubmitBlockBoth(env, f, d, useGetBlockTemplate, block, ignoreFailure).rpc
         == SubmitBlockBoth(env, f', d, useGetBlockTemplate, block, ignoreFailure).rpc
  {
  }

  /** A handshake makes the peer-to-peer path usable for this connection; a lost connection makes it retry. */
  lemma SubmitFollowsConnection(s: Protocol, f: Factory, block: Block)
    requires s.factory == CLIENT_FACTORY
    ensures SubmitBlockP2P(ApplyActions(f, HandleVerack(s).actions), block) == Ok(Sent(s.id, BlockMsg(block)))
    ensures SubmitBlockP2P(ApplyActions(f, ConnectionLost(s).actions), block) == Err(RetrySilently(NoConnection))
  {
  }
}

=== FILE: networks.dfy ===
/**
 * The share-chain profile layered over the Quark parent network: chain
 * lengths, share-target bounds and the daemon version predicate.
 */
module ShareNetworks {
  import opened Arith
  import opened QuarkData

  /** Seconds between shares. */
  const SHARE_PERIOD: nat := 10
  /** Number of shares back the node keeps: one day of shares. */
  const CHAIN_LENGTH: nat := 24 * 60 * 60 / 10
  /** Number of shares back the node uses to compute payouts. */
  const REAL_CHAIN_LENGTH: nat := 24 * 60 * 60 / 10
  const MIN_TARGET: nat := 0
  const MAX_TARGET: nat := TWO_256 / TWO_32 - 1

  /** `VERSION_CHECK`: every daemon version is accepted. */
  function VersionCheck(version: int): (ok: bool)
    ensures ok
  {
    true
  }

  /** The payout window never reaches past the shares kept, and the kept chain spans one day. */
  lemma ChainLengthsConsistent()
    ensures REAL_CHAIN_LENGTH <= CHAIN_LENGTH
    ensures CHAIN_LENGTH * SHARE_PERIOD == 24 * 60 * 60
  {
  }

  /** The share-target bounds: `0 <= MAX_TARGET == 2^224 - 1`. */
  lemma ShareTargetBounds()
    ensures MIN_TARGET <= MAX_TARGET
    ensures MAX_TARGET == Pow2(224) - 1
  {
    assert Pow2(8) == 256;
    Pow2Add(8, 8);
    assert Pow2(16) == 0x1_0000;
    Pow2Add(16, 16);
    assert Pow2(32) == TWO_32;
    Pow2Add(32, 32);
    assert Pow2(64) == 0x1_0000_0000_0000_0000;
    Pow2Add(64, 64);
    assert Pow2(128) == 0x1_0000_0000_0000_0000_0000_0000_0000_0000;
    Pow2Add(128, 64);
    assert Pow2(192) == 0x1_0000_0000_0000_0000_0000_0000_0000_0000_0000_0000_0000_0000;
    Pow2Add(192, 32);
    assert Pow2(224) == 0x1_0000_0000_0000_0000_0000_0000_0000_0000_0000_0000_0000_0000_0000_0000;
    Pow2Add(224, 32);
    assert Pow2(256) == TWO_256;
    DivUnique(TWO_256, TWO_32, Pow2(224), 0);
  }
}

=== FILE: p2p.dfy ===
/**
 * The per-connection protocol handler of the Quark peer-to-peer client and
 * its connection factory. Each handler is a pure transition from the
 * connection's state and one incoming message to a new state and the
 * ordered list of effects the handler performs: messages sent, factory
 * events raised, responses handed to the reply matchers, and updates of the
 * factory's current connection. Transport, timers and the reply matchers'
 * internals are not modelled; only the calls made to them are.
 */
module P2P {
  import opened Wrappers
  import opened QuarkData
  import opened QuarkNetworks
  import opened P2PMessages

  /** The protocol version announced in `version`. */
  const PROTOCOL_VERSION: UInt32 := 70004
  /** The services bit-field announced for this node and both address records. */
  const NODE_SERVICES: UInt64 := 1
  /** The payload size above which the framer drops the connection. */
  const MAX_PAYLOAD_LENGTH: nat := 1000000
  /** The fixed nonce of the liveness probe. */
  const PING_NONCE: UInt64 := 1234
  /** Seconds between two liveness probes. */
  const PING_INTERVAL: nat := 30
  /** The `version` field of the `getheaders` requests the header matcher sends. */
  const GETHEADERS_VERSION: UInt32 := 1

  /** Framing parameters a protocol instance hands to the message framer. */
  datatype Framing = Framing(prefix: Bytes, maxPayloadLength: nat, ignoreTrailingPayload: bool)

  /** The identity of one protocol instance (one connection). */
  type ConnId = nat

  /** The two reply matchers a connection installs once the handshake completes. */
  datatype ReplyMatcher = BlockByHash | HeaderByHash

  /** The request a matcher sends (and re-sends) while a key is awaited. */
  function Request(m: ReplyMatcher, hash: UInt256): Message {
    match m
    case BlockByHash => GetData([InvItem(InvBlock, hash)])
    case HeaderByHash => GetHeaders(GETHEADERS_VERSION, [], Some(hash))
  }

  datatype Matchers = Matchers(getBlock: ReplyMatcher, getBlockHeader: ReplyMatcher)

  /** A periodic call of `send_ping(nonce)` every `interval` seconds, while `running`. */
  datatype Pinger = Pinger(nonce: UInt64, interval: nat, running: bool)

  /** Which optional hooks the owning factory offers (`hasattr` in the handlers). */
  datatype FactoryHooks = FactoryHooks(hasResetDelay: bool, hasGotConnection: bool)

  /** `ClientFactory` is a reconnecting factory: it offers both hooks. */
  const CLIENT_FACTORY: FactoryHooks := FactoryHooks(true, true)

  /**
   * The state of one protocol instance. `pingers` lists every pinger started
   * on this connection, oldest first; the handler's `pinger` attribute names
   * the last one, and an earlier one keeps running once it is no longer named.
   */
  datatype Protocol = Protocol(
    id: ConnId,
    factory: FactoryHooks,
    framing: Framing,
    matchers: Option<Matchers>,
    pingers: seq<Pinger>)

  /** An effect performed by a handler, in the order the handler performs it. */
  datatype Action =
    | Send(msg: Message)
    | ResetDelay
    | GotConnection(conn: Option<ConnId>)
    | NewBlock(hash: UInt256)
    | NewTx(tx: Tx)
    | NewHeaders(headers: seq<BlockHeader>)
    | BlockResponse(key: UInt256, block: Block)
    | HeaderResponse(key: UInt256, header: BlockHeader)

  datatype Outcome = Outcome(state: Protocol, actions: seq<Action>)

  /** A handler touched a reply matcher before the handshake installed it (Python's `AttributeError`). */
  datatype HandlerError = MissingReplyMatcher

  /** The key blocks and headers are filed under: `BLOCKHASH_FUNC` of the packed header. */
  function BlockKey(env: Env, header: BlockHeader): UInt256 {
    BlockHashFunc(env, env.codec.packHeader(header))
  }

  /**
   * `buildProtocol`: a fresh instance owned by `factory`, framed with the
   * network's magic prefix, a payload limit of 1000000 bytes, and trailing
   * payload bytes ignored.
   */
  function BuildProtocol(id: ConnId, factory: FactoryHooks): (p: Protocol)
    ensures p.id == id && p.factory == factory
    ensures p.framing == Framing([0xfc, 0xa4, 0x02, 0xdc], 1000000, true)
    ensures p.matchers.None? && p.pingers == []
  {
    Protocol(id, factory, Framing(P2P_PREFIX, MAX_PAYLOAD_LENGTH, true), None, [])
  }

  /** A transport endpoint. */
  datatype Endpoint = Endpoint(host: string, port: UInt16)

  /** The sub-version string announced in `version`: the client version between `/P2Pool:` and `/`. */
  function SubVersion(clientVersion: string): string {
    "/P2Pool:" + clientVersion + "/"
  }

  /**
   * `connectionMade`: announce this node with one `version` message. The
   * clock reading and the random nonce are inputs.
   */
  function ConnectionMade(peer: Endpoint, host: Endpoint, now: UInt64, nonce: UInt64, clientVersion: string): (r: seq<Action>)
    ensures |r| == 1 && r[0].Send? && r[0].msg.Version?
    ensures r[0].msg.version == 70004 && r[0].msg.services == 1 && r[0].msg.startHeight == 0
    ensures r[0].msg.subVersion == "/P2Pool:" + clientVersion + "/"
    ensures r[0].msg.addrTo == Address(1, peer.host, peer.port)
    ensures r[0].msg.addrFrom == Address(1, host.host, host.port)
    ensures r[0].msg.time == now && r[0].msg.nonce == nonce
  {
    [Send(Version(
      PROTOCOL_VERSION,
      NODE_SERVICES,
      now,
      Address(NODE_SERVICES, peer.host, peer.port),
      Address(NODE_SERVICES, host.host, host.port),
      nonce,
      SubVersion(clientVersion),
      0))]
  }

  /**
   * `handle_verack`: install the matchers, reset the backoff, publish this
   * connection, start a new pinger. A pinger started by an earlier `verack`
   * is not stopped.
   */
  function HandleVerack(s: Protocol): (r: Outcome)
    ensures r.state.id == s.id && r.state.factory == s.factory
    ensures r.state.matchers.Some?
    ensures forall h: UInt256 :: Request(r.state.matchers.value.getBlock, h) == GetData([InvItem(InvBlock, h)])
    ensures forall h: UInt256 :: Request(r.state.matchers.value.getBlockHeader, h) == GetHeaders(1, [], Some(h))
    ensures r.state.pingers == s.pingers + [Pinger(1234, 30, true)]
    ensures |r.actions| == (if s.factory.hasResetDelay then 1 else 0) + (if s.factory.hasGotConnection then 1 else 0)
    ensures ResetDelay in r.actions <==> s.factory.hasResetDelay
    ensures GotConnection(Some(s.id)) in r.actions <==> s.factory.hasGotConnection
    ensures forall a :: a in r.actions ==> a == ResetDelay || a == GotConnection(Some(s.id))
    ensures forall i, j :: 0 <= i < j < |r.actions| ==>
      r.actions[i] == ResetDelay && r.actions[j] == GotConnection(Some(s.id))
  {
    var installed := s.(matchers := Some(Matchers(BlockByHash, HeaderByHash)));
    var reset := if s.factory.hasResetDelay then [ResetDelay] else [];
    var publish := if s.factory.hasGotConnection then [GotConnection(Some(s.id))] else [];
    Outcome(installed.(pingers := s.pingers + [Pinger(PING_NONCE, PING_INTERVAL, true)]), reset + publish)
  }

  /** The inventory kinds the node acts upon. */
  predicate Wanted(i: InvItem) {
    i.kind == InvTx || i.kind == InvBlock
  }

  /** What one wanted inventory entry triggers: fetch a transaction, announce a block. */
  function InvAction(i: InvItem): Action
    requires Wanted(i)
  {
    if i.kind == InvTx then Send(GetData([i])) else NewBlock(i.hash)
  }

  /** The effects of one inventory entry. */
  function EntryActions(i: InvItem): seq<Action> {
    if i.kind == InvTx then [Send(GetData([i]))]
    else if i.kind == InvBlock then [NewBlock(i.hash)]
    else []
  }

  /** `handle_inv`: the loop over the announced entries, in order. */
  function InvActions(invs: seq<InvItem>): (r: seq<Action>)
    ensures |r| <= |invs|
    ensures forall a :: a in r ==> a.Send? || a.NewBlock?
    ensures forall a :: a in r && a.Send? ==>
      a.msg.GetData? && |a.msg.requests| == 1 && a.msg.requests[0] in invs && a.msg.requests[0].kind == InvTx
    ensures forall a :: a in r && a.NewBlock? ==> InvItem(InvBlock, a.hash) in invs
  {
    if invs == [] then []
    else
      var rest := InvActions(invs[1..]);
      assert forall i :: i in invs[1..] ==> i in invs;
      EntryActions(invs[0]) + rest
  }

  /** The wanted entries of an announcement, in announcement order. */
  function WantedEntries(invs: seq<InvItem>): (w: seq<InvItem>)
    ensures forall k :: 0 <= k < |w| ==> Wanted(w[k])
  {
    if invs == [] then []
    else (if Wanted(invs[0]) then [invs[0]] else []) + WantedEntries(invs[1..])
  }

  /** Number of entries of a given kind. */
  function CountKind(invs: seq<InvItem>, kind: InvType): nat {
    if invs == [] then 0
    else (if invs[0].kind == kind then 1 else 0) + CountKind(invs[1..], kind)
  }

  /** `inv` yields one action per wanted entry, in order, and nothing for the other kinds. */
  lemma {:induction false} InvActionsFollowWantedEntries(invs: seq<InvItem>)
    ensures |InvActions(invs)| == |WantedEntries(invs)|
    ensures forall k :: 0 <= k < |InvActions(invs)| ==> InvActions(invs)[k] == InvAction(WantedEntries(invs)[k])
  {
    if invs != [] {
      InvActionsFollowWantedEntries(invs[1..]);
    }
  }

  /** The number of effects of `inv` is the number of transaction entries plus block entries. */
  lemma {:induction false} InvActionCount(invs: seq<InvItem>)
    ensures |InvActions(invs)| == CountKind(invs, InvTx) + CountKind(invs, InvBlock)
  {
    if invs != [] {
      InvActionCount(invs[1..]);
    }
  }

  /** Entries are handled independently and in order: an announcement split in two yields the effects of each part, concatenated. */
  lemma {:induction false} InvActionsAppend(a: seq<InvItem>, b: seq<InvItem>)
    ensures InvActions(a + b) == InvActions(a) + InvActions(b)
  {
    if a == [] {
      assert a + b == b;
    } else {
      assert (a + b)[0] == a[0];
      assert (a + b)[1..] == a[1..] + b;
      InvActionsAppend(a[1..], b);
      calc {
        InvActions(a + b);
        EntryActions(a[0]) + InvActions(a[1..] + b);
        EntryActions(a[0]) + (InvActions(a[1..]) + InvActions(b));
        (EntryActions(a[0]) + InvActions(a[1..])) + InvActions(b);
      }
    }
  }

  /** `handle_block` and `handle_block_old`: file the block and its header under the block's key. */
  function HandleBlock(env: Env, s: Protocol, block: Block): (r: Result<Outcome, HandlerError>)
    ensures r.Err? <==> s.matchers.None?
    ensures r.Ok? ==> r.value.state == s
    ensures r.Ok? ==> r.value.actions == [
      BlockResponse(PowFunc(env, env.codec.packHeader(block.header)), block),
      HeaderResponse(PowFunc(env, env.codec.packHeader(block.header)), block.header)]
  {
    if s.matchers.None? then Err(MissingReplyMatcher)
    else
      var key := BlockKey(env, block.header);
      Ok(Outcome(s, [BlockResponse(key, block), HeaderResponse(key, block.header)]))
  }

  /** The headers of a `headers` message's entries, in order. */
  function HeadersOf(entries: seq<Block>): (hs: seq<BlockHeader>)
    ensures |hs| == |entries|
    ensures forall k :: 0 <= k < |hs| ==> hs[k] == entries[k].header
  {
    seq(|entries|, k requires 0 <= k < |entries| => entries[k].header)
  }

  /** One header-matcher response per entry, keyed by that entry's own header. */
  function HeaderResponses(env: Env, entries: seq<Block>): (r: seq<Action>)
    ensures |r| == |entries|
    ensures forall k :: 0 <= k < |r| ==>
      r[k] == HeaderResponse(BlockKey(env, entries[k].header), entries[k].header)
  {
    if entries == [] then []
    else [HeaderResponse(BlockKey(env, entries[0].header), entries[0].header)] + HeaderResponses(env, entries[1..])
  }

  /**
   * `handle_headers`: hand each header to the header matcher, then announce
   * the whole list. An empty list never touches the matcher, so it is
   * accepted even before the handshake.
   */
  function HandleHeaders(env: Env, s: Protocol, entries: seq<Block>): (r: Result<Outcome, HandlerError>)
    ensures r.Err? <==> s.matchers.None? && |entries| > 0
    ensures r.Ok? ==> r.value.state == s && |r.value.actions| == |entries| + 1
    ensures r.Ok? ==> forall k :: 0 <= k < |entries| ==>
      r.value.actions[k] == HeaderResponse(BlockKey(env, entries[k].header), entries[k].header)
    ensures r.Ok? ==> r.value.actions[|entries|] == NewHeaders(HeadersOf(entries))
  {
    if s.matchers.None? && |entries| > 0 then Err(MissingReplyMatcher)
    else Ok(Outcome(s, HeaderResponses(env, entries) + [NewHeaders(HeadersOf(entries))]))
  }

  /** The messages whose handlers use a reply matcher. */
  predicate NeedsMatchers(m: Message) {
    m.BlockMsg? || m.BlockOldMsg? || (m.Headers? && |m.headers| > 0)
  }

  /**
   * Dispatch of one incoming message to its `handle_*` method. Commands
   * without a handler (`getdata`, `getblocks`, `getheaders`, `getaddr`) are
   * ignored.
   */
  function Handle(env: Env, s: Protocol, m: Message): (r: Result<Outcome, HandlerError>)
    ensures r.Err? <==> s.matchers.None? && NeedsMatchers(m)
    ensures r.Ok? && !m.Verack? ==> r.value.state == s
    ensures r.Ok? ==> forall a :: a in r.value.actions && a.Send? ==> Encodable(a.msg)
    ensures r.Ok? ==> forall a :: a in r.value.actions && a.HeaderResponse? ==>
      a.key == BlockKey(env, a.header)
    ensures r.Ok? ==> forall a :: a in r.value.actions && a.BlockResponse? ==>
      a.key == BlockKey(env, a.block.header)
  {
    match m
    case Version(_, _, _, _, _, _, _, _) => Ok(Outcome(s, [Send(Verack)]))
    case Verack => Ok(HandleVerack(s))
    case Inv(invs) => Ok(Outcome(s, InvActions(invs)))
    case TxMsg(tx) => Ok(Outcome(s, [NewTx(tx)]))
    case BlockMsg(block) => HandleBlock(env, s, block)
    case BlockOldMsg(block) => HandleBlock(env, s, block)
    case Headers(entries) => HandleHeaders(env, s, entries)
    case Ping(nonce) => Ok(Outcome(s, [Send(Pong(nonce))]))
    case Pong(_) => Ok(Outcome(s, []))
    case Addr(_) => Ok(Outcome(s, []))
    case Alert(_, _) => Ok(Outcome(s, []))
    case GetData(_) => Ok(Outcome(s, []))
    case GetBlocks(_, _, _) => Ok(Outcome(s, []))
    case GetHeaders(_, _, _) => Ok(Outcome(s, []))
    case GetAddr => Ok(Outcome(s, []))
  }

  /**
   * `connectionLost`: withdraw the current connection and stop the pinger
   * the handler names, that is the last one started, if any.
   */
  function ConnectionLost(s: Protocol): (r: Outcome)
    ensures r.state == s.(pingers := r.state.pingers)
    ensures |r.state.pingers| == |s.pingers|
    ensures s.pingers != [] ==> r.state.pingers[|s.pingers| - 1] == s.pingers[|s.pingers| - 1].(running := false)
    ensures forall k :: 0 <= k < |s.pingers| - 1 ==> r.state.pingers[k] == s.pingers[k]
    ensures r.actions == if s.factory.hasGotConnection then [GotConnection(None)] else []
  {
    var stopped :=
      if s.pingers == [] then []
      else s.pingers[..|s.pingers| - 1] + [s.pingers[|s.pingers| - 1].(running := false)];
    Outcome(s.(pingers := stopped), if s.factory.hasGotConnection then [GotConnection(None)] else [])
  }

  /** The pingers still running, oldest first. */
  function Running(pingers: seq<Pinger>): (rs: seq<Pinger>)
    ensures forall p :: p in rs <==> p in pingers && p.running
  {
    if pingers == [] then []
    else (if pingers[0].running then [pingers[0]] else []) + Running(pingers[1..])
  }

  /** One firing of every pinger of a connection: a `ping` with its nonce from each one still running, oldest first. */
  function PingerTick(pingers: seq<Pinger>): (r: seq<Action>)
    ensures |r| == |Running(pingers)| <= |pingers|
    ensures forall k :: 0 <= k < |r| ==> r[k] == Send(Ping(Running(pingers)[k].nonce))
    ensures forall a :: a in r ==> exists p :: p in pingers && p.running && a == Send(Ping(p.nonce))
    ensures forall p :: p in pingers && p.running ==> Send(Ping(p.nonce)) in r
  {
    if pingers == [] then []
    else
      var rest := PingerTick(pingers[1..]);
      assert forall p :: p in pingers[1..] ==> p in pingers;
      (if pingers[0].running then [Send(Ping(pingers[0].nonce))] else []) + rest
  }

  /** `ClientFactory`'s state: the current connection (`conn`), initially none. */
  datatype Factory = Factory(conn: Option<ConnId>)

  /** No `gotConnection` follows position `k`. */
  predicate NoConnectionEventAfter(actions: seq<Action>, k: int) {
    forall j :: 0 <= j < |actions| && k < j ==> !actions[j].GotConnection?
  }

  /**
   * The factory's view of a handler's effects: `gotConnection(c)` makes `c`
   * current; other effects leave it alone. So the current connection is the
   * one named by the last `gotConnection`, wherever it stands.
   */
  function ApplyActions(f: Factory, actions: seq<Action>): (g: Factory)
    ensures (forall a :: a in actions ==> !a.GotConnection?) ==> g == f
    ensures forall k :: 0 <= k < |actions| && actions[k].GotConnection? && NoConnectionEventAfter(actions, k) ==>
      g.conn == actions[k].conn
  {
    if actions == [] then f
    else
      var last := actions[|actions| - 1];
      var init := actions[..|actions| - 1];
      assert forall a :: a in init ==> a in actions;
      assert forall k :: 0 <= k < |init| ==> init[k] == actions[k];
      if last.GotConnection? then
        assert forall k :: 0 <= k < |init| ==> !NoConnectionEventAfter(actions, k);
        Factory(last.conn)
      else
        assert forall k :: 0 <= k < |init| && NoConnectionEventAfter(actions, k) ==> NoConnectionEventAfter(init, k);
        ApplyActions(f, init)
  }

  /** Effects applied in two batches move the factory as if applied at once. */
  lemma {:induction false} ApplyActionsAppend(f: Factory, a: seq<Action>, b: seq<Action>)
    ensures ApplyActions(f, a + b) == ApplyActions(ApplyActions(f, a), b)
    decreases |b|
  {
    if b == [] {
      assert a + b == a;
    } else {
      var b' := b[..|b| - 1];
      assert (a + b)[..|a + b| - 1] == a + b';
      assert (a + b)[|a + b| - 1] == b[|b| - 1];
      ApplyActionsAppend(f, a, b');
    }
  }

  /**
   * `getProtocol`: the current connection, if there is one; `None` means the
   * caller waits until one is published.
   */
  function GetProtocol(f: Factory): (r: Option<ConnId>)
    ensures r.Some? <==> f.conn.Some?
    ensures r.Some? ==> r.value == f.conn.value
  {
    f.conn
  }

  /** Once the handshake completes under a client factory, the factory serves this connection. */
  lemma VerackPublishesConnection(s: Protocol, f: Factory)
    requires s.factory == CLIENT_FACTORY
    ensures GetProtocol(ApplyActions(f, HandleVerack(s).actions)) == Some(s.id)
  {
  }

  /**
   * Once the connection is lost, no connection is current, and if at most
   * one pinger was ever started, nothing pings any more.
   */
  lemma ConnectionLostWithdraws(s: Protocol, f: Factory)
    requires s.factory == CLIENT_FACTORY
    ensures GetProtocol(ApplyActions(f, ConnectionLost(s).actions)).None?
    ensures |s.pingers| <= 1 ==> PingerTick(ConnectionLost(s).state.pingers) == []
  {
  }

  /** After the first handshake the pinger sends `ping(1234)`. */
  lemma VerackStartsPinging(s: Protocol)
    requires s.pingers == []
    ensures PingerTick(HandleVerack(s).state.pingers) == [Send(Ping(1234))]
  {
  }

  /**
   * A second `verack` starts a second pinger, and losing the connection stops
   * only that one: the first keeps sending `ping(1234)`.
   */
  lemma SecondVerackLeaksPinger(s: Protocol)
    requires s.pingers == []
    ensures var lost := ConnectionLost(HandleVerack(HandleVerack(s).state).state);
      PingerTick(lost.state.pingers) == [Send(Ping(1234))]
  {
    var running := Pinger(1234, 30, true);
    var stopped := Pinger(1234, 30, false);
    var twice := HandleVerack(HandleVerack(s).state).state;
    assert twice.pingers == [running, running];
    var lost := ConnectionLost(twice).state.pingers;
    assert lost == [running, stopped] by {
      assert lost[..1] == [running];
    }
    assert PingerTick([stopped]) == [] by {
      assert [stopped][1..] == [];
    }
    assert PingerTick([running, stopped]) == [Send(Ping(1234))] by {
      assert [running, stopped][1..] == [stopped];
    }
  }

  /**
   * The outcome of delivering several messages: the state reached, the
   * effects performed in order, and the handler error that ended the
   * delivery, if any. A failing handler fails before any effect of its own,
   * so the effects listed are exactly those of the messages before it.
   */
  datatype Delivery = Delivery(state: Protocol, actions: seq<Action>, failure: Option<HandlerError>)

  /** Delivery of several messages on one connection, in arrival order; the first handler error ends the delivery. */
  function Deliver(env: Env, s: Protocol, msgs: seq<Message>): (r: Delivery)
    ensures r.state.id == s.id && r.state.factory == s.factory
    ensures s.matchers.Some? ==> r.state.matchers.Some? && r.failure.None?
    ensures Verack !in msgs ==> r.state == s
    ensures forall a :: a in r.actions && a.Send? ==> Encodable(a.msg)
    decreases |msgs|
  {
    if msgs == [] then Delivery(s, [], None)
    else
      match Handle(env, s, msgs[0])
      case Err(e) => Delivery(s, [], Some(e))
      case Ok(first) =>
        assert Verack !in msgs ==> Verack !in msgs[1..];
        var rest := Deliver(env, first.state, msgs[1..]);
        Delivery(rest.state, first.actions + rest.actions, rest.failure)
  }

  /**
   * Only a block or a non-empty `headers` message can end a delivery, and
   * before the handshake the first such message always does.
   */
  lemma {:induction false} DeliverFailure(env: Env, s: Protocol, msgs: seq<Message>)
    ensures Deliver(env, s, msgs).failure.Some? ==> exists m :: m in msgs && NeedsMatchers(m)
    ensures Verack !in msgs && s.matchers.None? && (exists m :: m in msgs && NeedsMatchers(m)) ==>
      Deliver(env, s, msgs).failure.Some?
    decreases |msgs|
  {
    if msgs != [] && Handle(env, s, msgs[0]).Ok? {
      var first := Handle(env, s, msgs[0]).value;
      DeliverStep(env, s, msgs);
      DeliverFailure(env, first.state, msgs[1..]);
      assert forall m :: m in msgs[1..] ==> m in msgs;
      if Verack !in msgs && s.matchers.None? && (exists m :: m in msgs && NeedsMatchers(m)) {
        var m :| m in msgs && NeedsMatchers(m);
        assert m != msgs[0];
        assert m in msgs[1..];
      }
    }
  }

  /** One step of delivery: a first message that is handled is followed by the delivery of the rest. */
  lemma DeliverStep(env: Env, s: Protocol, msgs: seq<Message>)
    requires msgs != [] && Handle(env, s, msgs[0]).Ok?
    ensures var first := Handle(env, s, msgs[0]).value;
      var rest := Deliver(env, first.state, msgs[1..]);
      Deliver(env, s, msgs) == Delivery(rest.state, first.actions + rest.actions, rest.failure)
  {
  }

  /** A failing first message ends the delivery at once, with no effect and the state unchanged. */
  lemma DeliverFailingStep(env: Env, s: Protocol, msgs: seq<Message>)
    requires msgs != [] && Handle(env, s, msgs[0]).Err?
    ensures Deliver(env, s, msgs) == Delivery(s, [], Some(Handle(env, s, msgs[0]).error))
  {
  }

  /** Delivering `a + b` is delivering `a` and then, if it did not fail, `b` from the state `a` reached. */
  lemma {:induction false} DeliverAppend(env: Env, s: Protocol, a: seq<Message>, b: seq<Message>)
    requires Deliver(env, s, a).failure.None?
    ensures var first := Deliver(env, s, a);
      var rest := Deliver(env, first.state, b);
      Deliver(env, s, a + b) == Delivery(rest.state, first.actions + rest.actions, rest.failure)
    decreases |a|
  {
    if a == [] {
      assert a + b == b;
    } else {
      assert Handle(env, s, a[0]).Ok?;
      var first := Handle(env, s, a[0]).value;
      DeliverAppend(env, first.state, a[1..], b);
      assert (a + b)[0] == a[0];
      assert (a + b)[1..] == a[1..] + b;
      DeliverStep(env, s, a);
      DeliverStep(env, s, a + b);
      ActionsAssociate(first.actions, Deliver(env, first.state, a[1..]).actions,
        Deliver(env, Deliver(env, first.state, a[1..]).state, b).actions);
    }
  }

  lemma ActionsAssociate(x: seq<Action>, y: seq<Action>, z: seq<Action>)
    ensures x + (y + z) == (x + y) + z
  {
  }

  /** A handler error does not undo what earlier messages did: a `ping` before a premature block is still answered. */
  lemma EarlierEffectsSurviveFailure(env: Env, id: ConnId, nonce: UInt64, block: Block)
    ensures Deliver(env, BuildProtocol(id, CLIENT_FACTORY), [Ping(nonce), BlockMsg(block)]) ==
      Delivery(BuildProtocol(id, CLIENT_FACTORY), [Send(Pong(nonce))], Some(MissingReplyMatcher))
  {
    var s := BuildProtocol(id, CLIENT_FACTORY);
    assert [Ping(nonce), BlockMsg(block)][1..] == [BlockMsg(block)];
    assert Deliver(env, s, [BlockMsg(block)]) == Delivery(s, [], Some(MissingReplyMatcher));
  }

  /**
   * A fresh connection rejects a block until the handshake completes; after
   * `version` and `verack` the same block is filed under its key.
   */
  lemma HandshakeEnablesBlocks(env: Env, id: ConnId, hello: Message, block: Block)
    requires hello.Version?
    ensures Deliver(env, BuildProtocol(id, CLIENT_FACTORY), [BlockMsg(block)]).failure == Some(MissingReplyMatcher)
    ensures Deliver(env, BuildProtocol(id, CLIENT_FACTORY), [hello, Verack, BlockMsg(block)]).failure.None?
    ensures Deliver(env, BuildProtocol(id, CLIENT_FACTORY), [hello, Verack, BlockMsg(block)]).actions == [
      Send(Verack), ResetDelay, GotConnection(Some(id)),
      BlockResponse(BlockKey(env, block.header), block),
      HeaderResponse(BlockKey(env, block.header), block.header)]
  {
    var s0 := BuildProtocol(id, CLIENT_FACTORY);
    var s1 := HandleVerack(s0).state;
    assert [hello, Verack, BlockMsg(block)][1..] == [Verack, BlockMsg(block)];
    assert [Verack, BlockMsg(block)][1..] == [BlockMsg(block)];
    var filed := [BlockResponse(BlockKey(env, block.header), block), HeaderResponse(BlockKey(env, block.header), block.header)];
    assert [BlockMsg(block)][1..] == [];
    assert Handle(env, s1, BlockMsg(block)) == Ok(Outcome(s1, filed));
    assert Deliver(env, s1, []) == Delivery(s1, [], None);
    assert filed + [] == filed;
    assert Deliver(env, s1, [BlockMsg(block)]) == Delivery(s1, filed, None);
  }

  /** A `version` is answered by exactly one `verack` and nothing else. */
  lemma VersionAnsweredByVerack(env: Env, s: Protocol, m: Message)
    requires m.Version?
    ensures Handle(env, s, m) == Ok(Outcome(s, [Send(Verack)]))
  {
  }

  /** A `ping` is answered by a `pong` carrying the same nonce. */
  lemma PingAnsweredByPong(env: Env, s: Protocol, nonce: UInt64)
    ensures Handle(env, s, Ping(nonce)) == Ok(Outcome(s, [Send(Pong(nonce))]))
  {
  }

  /**
   * `pong`, `addr` and `alert` have no effect at all, and neither have the
   * commands without a handler (`getdata`, `getblocks`, `getheaders`,
   * `getaddr`), which the framer's dispatch skips.
   */
  lemma QuietMessagesHaveNoEffect(env: Env, s: Protocol, m: Message)
    requires m.Pong? || m.Addr? || m.Alert? || m.GetData? || m.GetBlocks? || m.GetHeaders? || m.GetAddr?
    ensures Handle(env, s, m) == Ok(Outcome(s, []))
  {
  }

  /**
   * Every command with a handler is routed to it: `verack` runs the verack
   * handler on every delivery, not only the first; `block` and `block_old`
   * run the block handler; `inv`, `tx` and `headers` reach theirs, and
   * nothing else happens.
   */
  lemma DispatchTable(env: Env, s: Protocol, invs: seq<InvItem>, tx: Tx, block: Block, entries: seq<Block>)
    ensures Handle(env, s, Verack) == Ok(HandleVerack(s))
    ensures Handle(env, s, BlockMsg(block)) == HandleBlock(env, s, block)
    ensures Handle(env, s, BlockOldMsg(block)) == HandleBlock(env, s, block)
    ensures Handle(env, s, Inv(invs)) == Ok(Outcome(s, InvActions(invs)))
    ensures Handle(env, s, TxMsg(tx)) == Ok(Outcome(s, [NewTx(tx)]))
    ensures Handle(env, s, Headers(entries)) == HandleHeaders(env, s, entries)
  {
  }

  /**
   * Delivered on a fresh client connection, two `verack` messages start two
   * pingers; losing the connection stops only the second, so one of them
   * keeps pinging.
   */
  lemma {:induction false} TwoVeracksLeaveRunningPinger(env: Env, id: ConnId)
    ensures var twice := Deliver(env, BuildProtocol(id, CLIENT_FACTORY), [Verack, Verack]);
      && twice.failure.None?
      && twice.state.pingers == [Pinger(1234, 30, true), Pinger(1234, 30, true)]
      && PingerTick(ConnectionLost(twice.state).state.pingers) == [Send(Ping(1234))]
  {
    var s := BuildProtocol(id, CLIENT_FACTORY);
    var once := HandleVerack(s).state;
    DeliverStep(env, s, [Verack, Verack]);
    assert [Verack, Verack][1..] == [Verack];
    DeliverStep(env, once, [Verack]);
    assert [Verack][1..] == [];
    SecondVerackLeaksPinger(s);
  }

  /** The current and the legacy block encodings are handled identically. */
  lemma BlockEncodingsAgree(env: Env, s: Protocol, block: Block)
    ensures Handle(env, s, BlockMsg(block)) == Handle(env, s, BlockOldMsg(block))
  {
  }

  /**
   * The header matcher's request names the awaited hash in a `possibly none`
   * field, so a request for hash 0 reads as "no last hash" on the wire.
   */
  lemma HeaderRequestSentinel(s: Protocol, hash: UInt256)
    requires s.matchers.Some? && s.matchers.value.getBlockHeader == HeaderByHash
    ensures Request(s.matchers.value.getBlockHeader, hash).GetHeaders?
    ensures DecodePossiblyNone(EncodePossiblyNone(Request(s.matchers.value.getBlockHeader, hash).last)) == Some(hash)
      <==> hash != 0
  {
    PossiblyNoneRoundTrip(Some(hash), 0);
  }
}

=== FILE: p2p_messages.dfy ===
/**
 * The Quark wire messages this node understands, field by field, with the
 * enumeration tables and the "possibly none" encoding their schemas use.
 * Framing and byte-level packing are not modelled; the integer widths of
 * the schemas are carried by the field types.
 */
module P2PMessages {
  import opened Wrappers
  import opened QuarkData

  /** Inventory kinds announced in `inv`. */
  datatype InvType =
    | InvTx | InvBlock | InvFilteredBlock | InvTxLockRequest | InvTxLockVote
    | InvSpork | InvMasternodeWinner | InvMasternodeScanningError | InvBudgetVote
    | InvBudgetProposal | InvBudgetFinalized | InvBudgetFinalizedVote
    | InvMasternodeQuorum | InvMasternodeAnnounce | InvMasternodePing

  /** The integer tag of each inventory kind in `inv`'s enumeration. */
  function InvTypeCode(t: InvType): (c: UInt32)
    ensures 1 <= c <= 15
  {
    match t
    case InvTx => 1
    case InvBlock => 2
    case InvFilteredBlock => 3
    case InvTxLockRequest => 4
    case InvTxLockVote => 5
    case InvSpork => 6
    case InvMasternodeWinner => 7
    case InvMasternodeScanningError => 8
    case InvBudgetVote => 9
    case InvBudgetProposal => 10
    case InvBudgetFinalized => 11
    case InvBudgetFinalizedVote => 12
    case InvMasternodeQuorum => 13
    case InvMasternodeAnnounce => 14
    case InvMasternodePing => 15
  }

  /** Decoding an `inv` tag: unknown tags fail. */
  function InvTypeOfCode(c: UInt32): (r: Option<InvType>)
    ensures r.Some? <==> 1 <= c <= 15
  {
    if c == 1 then Some(InvTx)
    else if c == 2 then Some(InvBlock)
    else if c == 3 then Some(InvFilteredBlock)
    else if c == 4 then Some(InvTxLockRequest)
    else if c == 5 then Some(InvTxLockVote)
    else if c == 6 then Some(InvSpork)
    else if c == 7 then Some(InvMasternodeWinner)
    else if c == 8 then Some(InvMasternodeScanningError)
    else if c == 9 then Some(InvBudgetVote)
    else if c == 10 then Some(InvBudgetProposal)
    else if c == 11 then Some(InvBudgetFinalized)
    else if c == 12 then Some(InvBudgetFinalizedVote)
    else if c == 13 then Some(InvMasternodeQuorum)
    else if c == 14 then Some(InvMasternodeAnnounce)
    else if c == 15 then Some(InvMasternodePing)
    else None
  }

  /** The `inv` enumeration table is a bijection between its kinds and the tags 1..15. */
  lemma InvTypeTableBijective(t: InvType, c: UInt32)
    ensures InvTypeOfCode(InvTypeCode(t)) == Some(t)
    ensures InvTypeOfCode(c) == Some(t) ==> InvTypeCode(t) == c
  {
  }

  /** `getdata`'s narrower enumeration: only transactions and blocks can be requested. */
  predicate GetDataType(t: InvType) {
    t == InvTx || t == InvBlock
  }

  /** Decoding a `getdata` tag. */
  function GetDataTypeOfCode(c: UInt32): (r: Option<InvType>)
    ensures r.Some? ==> GetDataType(r.value) && InvTypeCode(r.value) == c
    ensures r.Some? <==> c == 1 || c == 2
  {
    if c == 1 then Some(InvTx) else if c == 2 then Some(InvBlock) else None
  }

  datatype InvItem = InvItem(kind: InvType, hash: UInt256)

  datatype TimedAddress = TimedAddress(timestamp: UInt32, address: Address)

  /** The messages of the protocol, one constructor per `message_*` schema. */
  datatype Message =
    | Version(version: UInt32, services: UInt64, time: UInt64, addrTo: Address, addrFrom: Address,
              nonce: UInt64, subVersion: string, startHeight: UInt32)
    | Verack
    | Inv(invs: seq<InvItem>)
    | GetData(requests: seq<InvItem>)
    | GetBlocks(version: UInt32, have: seq<UInt256>, last: Option<UInt256>)
    | GetHeaders(version: UInt32, have: seq<UInt256>, last: Option<UInt256>)
    | GetAddr
    | Addr(addrs: seq<TimedAddress>)
    | TxMsg(tx: Tx)
    | BlockMsg(block: Block)
    | BlockOldMsg(block: Block)
    | Headers(headers: seq<Block>)
    | Ping(nonce: UInt64)
    | Pong(nonce: UInt64)
    | Alert(message: string, signature: string)

  /** Whether the schema's codec can pack the message: `getdata` entries must lie in its enumeration. */
  predicate Encodable(m: Message) {
    m.GetData? ==> forall i :: 0 <= i < |m.requests| ==> GetDataType(m.requests[i].kind)
  }

  /** `PossiblyNoneType(0, IntType(256))`: `None` goes on the wire as 0. */
  function EncodePossiblyNone(o: Option<UInt256>): UInt256 {
    match o
    case None => 0
    case Some(h) => h
  }

  /** Reading a `PossiblyNoneType(0, …)` field: a 0 on the wire reads back as `None`. */
  function DecodePossiblyNone(x: UInt256): (r: Option<UInt256>)
    ensures r.Some? ==> r.value != 0
  {
    if x == 0 then None else Some(x)
  }

  /**
   * The sentinel makes the encoding lossy at exactly one point: a present
   * hash of 0 is indistinguishable from an absent one.
   */
  lemma PossiblyNoneRoundTrip(o: Option<UInt256>, x: UInt256)
    ensures DecodePossiblyNone(EncodePossiblyNone(o)) == o <==> o != Some(0)
    ensures EncodePossiblyNone(DecodePossiblyNone(x)) == x
  {
  }
}

=== FILE: quark_data.dfy ===
/**
 * The Quark block-chain records the synchronisation layer exchanges, at the
 * level of their fields. The byte-level codec (`pack`, hex conversion, the
 * transaction decoder, `hash256`) is not part of this model: it appears only
 * as the uninterpreted functions collected in `Codec`, about which nothing is
 * assumed.
 */
module QuarkData {

  const TWO_16: int := 0x1_0000
  const TWO_32: int := 0x1_0000_0000
  const TWO_64: int := 0x1_0000_0000_0000_0000
  const TWO_256: int := 0x1_0000_0000_0000_0000_0000_0000_0000_0000_0000_0000_0000_0000_0000_0000_0000_0000

  /** The ranges of the codec's unsigned `IntType(n)` fields. */
  type UInt16 = x: int | 0 <= x < TWO_16
  type UInt32 = x: int | 0 <= x < TWO_32
  type UInt64 = x: int | 0 <= x < TWO_64
  type UInt256 = x: int | 0 <= x < TWO_256

  type Byte = x: int | 0 <= x < 256
  type Bytes = seq<Byte>

  /** A decoded transaction; its internal structure is never inspected by this layer. */
  type Tx(==)

  /** The compact difficulty encoding of a header (`FloatingInteger`). */
  datatype FloatingInteger = FloatingInteger(bits: int)

  datatype BlockHeader = BlockHeader(
    version: UInt32,
    previousBlock: UInt256,
    merkleRoot: UInt256,
    timestamp: UInt32,
    bits: FloatingInteger,
    nonce: UInt32)

  /** A block record: the header plus its transactions (current and legacy encodings alike). */
  datatype Block = Block(header: BlockHeader, txs: seq<Tx>)

  /** A network address record (`address_type`). */
  datatype Address = Address(services: UInt64, address: string, port: UInt16)

  /**
   * The codec and conversion functions this layer calls but does not define:
   * header and block packing, hex encoding and decoding, `int(s, 16)`, the
   * transaction decoder, `hash256`, the `FloatingInteger` decoder, the compact
   * target expansion, and the coin's payee-address decoder.
   */
  datatype Codec = Codec(
    packHeader: BlockHeader -> Bytes,
    packBlock: Block -> Bytes,
    hexEncode: Bytes -> string,
    hexDecode: string -> Bytes,
    parseHex: string -> nat,
    unpackTx: Bytes -> Tx,
    hash256: Bytes -> UInt256,
    unpackBits: Bytes -> FloatingInteger,
    target: FloatingInteger -> nat,
    addressToPubkeyHash: string -> nat)
}

=== FILE: quark_networks.dfy ===
/**
 * The Quark parent-network profile: wire constants, the block subsidy
 * schedule, the daemon identity probe, and the proof-of-work function used
 * both as the block hash and as the value compared against a target.
 */
module QuarkNetworks {
  import opened Wrappers
  import opened Arith
  import opened QuarkData
  import opened Rpc

  const P2P_PREFIX: Bytes := [0xfc, 0xa4, 0x02, 0xdc]

  /** The subsidy of the first blocks, in base units: 2048 coins of 10^8 units. */
  const INITIAL_SUBSIDY: nat := 2048 * 100000000
  /** Number of blocks between two halvings of the subsidy. */
  const HALVING_INTERVAL: nat := 60480

  /** How many times the subsidy has been halved at `height`: `(height + 1) // 60480`. */
  function Halvings(height: nat): nat {
    (height + 1) / HALVING_INTERVAL
  }

  /** Python's `x >> k` on a non-negative `x`: `k` successive halvings, each rounding down. */
  function ShiftRight(x: nat, k: nat): nat {
    if k == 0 then x else ShiftRight(x, k - 1) / 2
  }

  /** Shifting further never yields more. */
  lemma {:induction false} ShiftRightAntitone(x: nat, j: nat, k: nat)
    requires j <= k
    ensures ShiftRight(x, k) <= ShiftRight(x, j)
    decreases k
  {
    if j < k {
      ShiftRightAntitone(x, j, k - 1);
    }
  }

  /** Once a shift reaches zero it stays zero. */
  lemma {:induction false} ShiftRightStaysZero(x: nat, j: nat, k: nat)
    requires j <= k && ShiftRight(x, j) == 0
    ensures ShiftRight(x, k) == 0
  {
    ShiftRightAntitone(x, j, k);
  }

  /** `SUBSIDY_FUNC`: `INITIAL_SUBSIDY >> Halvings(height)`. */
  function SubsidyFunc(height: nat): (r: nat)
    ensures r <= INITIAL_SUBSIDY
  {
    ShiftRightAntitone(INITIAL_SUBSIDY, 0, Halvings(height));
    ShiftRight(INITIAL_SUBSIDY, Halvings(height))
  }

  /** Every height before the first halving pays the full initial subsidy. */
  lemma SubsidyInitialEra(height: nat)
    requires height + 1 < HALVING_INTERVAL
    ensures SubsidyFunc(height) == INITIAL_SUBSIDY
  {
  }

  /** One more interval adds exactly one halving. */
  lemma HalvingsStep(height: nat)
    ensures Halvings(height + HALVING_INTERVAL) == Halvings(height) + 1
  {
  }

  /** Sixty-thousand-four-hundred-eighty blocks later the subsidy is halved (rounding down). */
  lemma SubsidyHalves(height: nat)
    ensures SubsidyFunc(height + HALVING_INTERVAL) == SubsidyFunc(height) / 2
  {
    HalvingsStep(height);
  }

  /** The subsidy never grows with the height. */
  lemma SubsidyNonIncreasing(lower: nat, upper: nat)
    requires lower <= upper
    ensures SubsidyFunc(upper) <= SubsidyFunc(lower)
  {
    assert Halvings(lower) <= Halvings(upper);
    ShiftRightAntitone(INITIAL_SUBSIDY, Halvings(lower), Halvings(upper));
  }

  /** Shifting by `a` and then by `b` is shifting by `a + b`. */
  lemma {:induction false} ShiftRightAdd(x: nat, a: nat, b: nat)
    ensures ShiftRight(ShiftRight(x, a), b) == ShiftRight(x, a + b)
  {
    if b > 0 {
      ShiftRightAdd(x, a, b - 1);
    }
  }

  /** 2^37 <= INITIAL_SUBSIDY < 2^38, so 37 shifts leave 1 and 38 leave 0. */
  lemma InitialSubsidyBits()
    ensures ShiftRight(INITIAL_SUBSIDY, 37) == 1
    ensures ShiftRight(INITIAL_SUBSIDY, 38) == 0
  {
    assert ShiftRight(INITIAL_SUBSIDY, 10) == 200000000;
    assert ShiftRight(200000000, 10) == 195312;
    assert ShiftRight(195312, 10) == 190;
    assert ShiftRight(190, 7) == 1;
    ShiftRightAdd(INITIAL_SUBSIDY, 10, 10);
    ShiftRightAdd(INITIAL_SUBSIDY, 20, 10);
    ShiftRightAdd(INITIAL_SUBSIDY, 30, 7);
  }

  /** The subsidy reaches zero exactly once 38 halvings have happened. */
  lemma SubsidyZeroIff(height: nat)
    ensures SubsidyFunc(height) == 0 <==> Halvings(height) >= 38
  {
    var k := Halvings(height);
    InitialSubsidyBits();
    if k >= 38 {
      ShiftRightStaysZero(INITIAL_SUBSIDY, 38, k);
    } else {
      ShiftRightAntitone(INITIAL_SUBSIDY, k, 37);
    }
  }

  /** The shift is a division by a power of two. */
  lemma {:induction false} ShiftRightIsDivision(x: nat, k: nat)
    ensures ShiftRight(x, k) == x / Pow2(k)
  {
    if k > 0 {
      ShiftRightIsDivision(x, k - 1);
      DivDiv(x, Pow2(k - 1), 2);
    }
  }

  /**
   * Python's `pat in s` on strings, scanning `s` from the front: whether
   * `pat` occurs as a contiguous substring of `s`.
   */
  predicate Contains(s: string, pat: string)
    ensures Contains(s, pat) ==> |pat| <= |s|
    ensures |pat| <= |s| && s[..|pat|] == pat ==> Contains(s, pat)
    ensures pat == [] ==> Contains(s, pat)
    decreases |s|
  {
    if |s| < |pat| then false
    else if s[..|pat|] == pat then true
    else Contains(s[1..], pat)
  }

  /** `pat` sits at offset `i` of `s`. */
  ghost predicate OccursAt(s: string, pat: string, i: int) {
    0 <= i && i + |pat| <= |s| && s[i..i + |pat|] == pat
  }

  lemma {:induction false} ContainsIffOccurs(s: string, pat: string)
    ensures Contains(s, pat) <==> exists i :: OccursAt(s, pat, i)
    decreases |s|
  {
    if |s| < |pat| {
    } else if s[..|pat|] == pat {
      assert OccursAt(s, pat, 0);
    } else {
      ContainsIffOccurs(s[1..], pat);
      if Contains(s[1..], pat) {
        var i :| OccursAt(s[1..], pat, i);
        assert s[1..][i..i + |pat|] == s[i + 1..i + 1 + |pat|];
        assert OccursAt(s, pat, i + 1);
      }
      if exists i :: OccursAt(s, pat, i) {
        var i :| OccursAt(s, pat, i);
        assert i != 0;
        assert s[1..][i - 1..i - 1 + |pat|] == s[i..i + |pat|];
        assert OccursAt(s[1..], pat, i - 1);
      }
    }
  }

  /** The marker a Quark daemon's `help` output contains. */
  const QUARK_HELP_MARKER: string := "quarkaddress"

  /** The help text identifies a Quark daemon. */
  ghost predicate QuarkHelp(text: string) {
    exists i :: OccursAt(text, QUARK_HELP_MARKER, i)
  }

  /**
   * `RPC_CHECK`: the daemon is a Quark daemon (its `help` text mentions
   * `quarkaddress`) and is not on testnet. `getinfo` is only consulted when
   * the `help` test passes; a JSON-RPC error of either call propagates.
   */
  function RpcCheck(d: Daemon): (r: Run<bool>)
    ensures r.calls == [Help] || r.calls == [Help, GetInfo]
    ensures r.calls == [Help, GetInfo] <==> d.help.Answer? && Contains(d.help.value, QUARK_HELP_MARKER)
    ensures r.result == Ok(true) <==>
      d.help.Answer? && QuarkHelp(d.help.value) && d.getinfo.Answer? && !d.getinfo.value.testnet
    ensures r.result == Ok(false) <==>
      d.help.Answer? && (!QuarkHelp(d.help.value) || (d.getinfo.Answer? && d.getinfo.value.testnet))
    ensures d.help.Fault? ==> r == Run([Help], Err(RpcError(d.help.code)))
    ensures d.help.Answer? && QuarkHelp(d.help.value) && d.getinfo.Fault? ==>
      r == Run([Help, GetInfo], Err(RpcError(d.getinfo.code)))
    ensures r.result.Err? ==> r.result.error.RpcError?
  {
    ContainsIffOccurs(if d.help.Answer? then d.help.value else "", QUARK_HELP_MARKER);
    match d.help
    case Fault(code) => Run([Help], Err(RpcError(code)))
    case Answer(text) =>
      if !Contains(text, QUARK_HELP_MARKER) then Run([Help], Ok(false))
      else
        match d.getinfo
        case Fault(code) => Run([Help, GetInfo], Err(RpcError(code)))
        case Answer(info) => Run([Help, GetInfo], Ok(!info.testnet))
  }

  /**
   * The foreign functions a network profile is built from: the codec, and
   * `quark_hash.getPoWHash` read as a 256-bit little-endian integer.
   */
  datatype Env = Env(codec: Codec, quarkHash: Bytes -> UInt256)

  /** `BLOCKHASH_FUNC`: the identity of a block, from its packed header. */
  function BlockHashFunc(env: Env, data: Bytes): UInt256 {
    env.quarkHash(data)
  }

  /** `POW_FUNC`: the proof-of-work value compared against a target. */
  function PowFunc(env: Env, data: Bytes): UInt256 {
    env.quarkHash(data)
  }

  /** Quark uses one function for both: a block's key is its proof-of-work value. */
  lemma BlockHashIsPow(env: Env, data: Bytes)
    ensures BlockHashFunc(env, data) == PowFunc(env, data)
  {
  }

  /** `SANE_TARGET_RANGE`: bounds on targets the pool considers plausible. */
  const SANE_TARGET_MIN: int := TWO_256 / TWO_32 / 100000 - 1
  const SANE_TARGET_MAX: int := TWO_256 / 0x10_0000 - 1

  lemma SaneTargetRangeOrdered()
    ensures 0 < SANE_TARGET_MIN < SANE_TARGET_MAX < TWO_256
  {
  }
}

=== FILE: rpc.dfy ===
/**
 * The daemon's JSON-RPC interface as this layer sees it. The transport is
 * not modelled: a `Daemon` is the set of answers the daemon gives to each
 * call, taken as an input, and every operation reports the calls it made in
 * order together with its result.
 */
module Rpc {
  import opened Wrappers

  /** The JSON-RPC error code for "method not found". */
  const METHOD_NOT_FOUND: int := -32601

  /** The daemon's reply to one call: a value, or a JSON-RPC error with its code. */
  datatype Reply<+T> = Answer(value: T) | Fault(code: int) {
    predicate MethodNotFound() {
      Fault? && code == METHOD_NOT_FOUND
    }
  }

  /** A JSON value as returned by the block submission calls. */
  datatype Json = JNull | JBool(b: bool) | JNumber(n: int) | JString(s: string) {
    /** Python truthiness of the decoded value. */
    predicate Truthy() {
      match this
      case JNull => false
      case JBool(b) => b
      case JNumber(n) => n != 0
      case JString(s) => s != ""
    }
  }

  /** The part of `getinfo` this layer reads. */
  datatype Info = Info(version: int, testnet: bool)

  /** One entry of a template's `transactions` list: an object with `data` and maybe `fee`, or a bare hex string. */
  datatype TemplateTx = TxObject(data: string, fee: Option<int>) | TxHex(hex: string) {
    function Packed(): string {
      match this
      case TxObject(d, _) => d
      case TxHex(h) => h
    }
  }

  /** `bits` arrives either as a hex string or as an integer. */
  datatype BitsField = BitsHex(hex: string) | BitsInt(n: int)

  /** `payee_amount` arrives either as the empty string or as a number. */
  datatype AmountField = EmptyAmount | Amount(n: int)

  /**
   * A block template as returned by `getblocktemplate` or `getmemorypool`.
   * Keys that may be absent are `Option`s: those the code tests for, and the
   * masternode keys it indexes unconditionally although a daemon without
   * masternode support omits them.
   */
  datatype Template = Template(
    version: int,
    previousBlockHash: string,
    transactions: seq<TemplateTx>,
    coinbaseValue: int,
    time: Option<int>,
    curTime: Option<int>,
    bits: BitsField,
    coinbaseFlags: Option<string>,
    coinbaseAux: Option<seq<string>>,
    height: Option<int>,
    payee: Option<string>,
    masternodePayments: Option<bool>,
    payeeAmount: Option<AmountField>)

  datatype TemplateMode = TemplateRequest | SubmitRequest(data: string)

  /** The calls this layer makes, with their arguments. */
  datatype RpcCall =
    | Help
    | GetInfo
    | GetBlockTemplate(mode: TemplateMode)
    | GetMemoryPool(submission: Option<string>)
    | GetBlock(hash: string)
    | SubmitBlock(block: string)

  /** The daemon's answers to each call this layer makes. */
  datatype Daemon = Daemon(
    help: Reply<string>,
    getinfo: Reply<Info>,
    blockTemplate: Reply<Template>,
    memoryPool: Reply<Template>,
    getBlockHeight: string -> Reply<int>,
    submitBlock: string -> Reply<Json>,
    templateSubmit: string -> Reply<Json>,
    memoryPoolSubmit: string -> Reply<Json>)

  /** Why an operation asked its retry wrapper to retry without a traceback. */
  datatype SilentReason = WrongDaemon | VersionTooOld | NoWorkMethod | NoConnection

  /**
   * How an attempt failed: a silent retry request, a JSON-RPC error that
   * propagates to the retry wrapper, a missing template key, or a failed
   * debug assertion.
   */
  datatype Failure =
    | RetrySilently(reason: SilentReason)
    | RpcError(code: int)
    | MissingKey(key: string)
    | AssertionFailed

  /** The calls an attempt made, in order, and its result. */
  datatype Run<+T> = Run(calls: seq<RpcCall>, result: Result<T, Failure>)
}

=== FILE: wrappers.dfy ===
/** Failure-compatible wrappers shared by every module of the model. */
module Wrappers {

  /** A value that may be absent: Python's `None` or a present value. */
  datatype Option<+T> = None | Some(value: T)

  /** The outcome of an operation that either yields a value or fails. */
  datatype Result<+T, +E> = Ok(value: T) | Err(error: E)
}
